=== FILE: README.md ===
# link-dashboard, modelled in Dafny

A Dafny model of two parts of the link dashboard.

- **The summarisation back-end** in `api/summarize.js`:
  - the in-memory summary cache with its time to live;
  - the credential pool built from the environment;
  - the prompt text sent to the model;
  - the loop over free models and credentials that falls back from one to the next;
  - the HTTP handler that ties these to the page fetch and answers with a status and a JSON body.
- **The client-side state logic** in `app.js`:
  - search, category and tag filtering;
  - removing summaries before links are persisted;
  - stripping HTML tags;
  - URL and sub-entry normalisation;
  - adding, editing and deleting links;
  - tag editing;
  - the text stored after a summarise request;
  - the theme switch.

The source's outside world becomes parameters:
- the clock is a `now` argument in milliseconds;
- the environment is an `Env` value;
- the page fetch is a function from URL to `Page`;
- the chat endpoint is a function from (request, credential) to `Response`;
- user input, confirmations, generated ids and the client's view of `/api/summarize` (`ClientAnswer`) are arguments too.

The state the source mutates is modelled as Dafny classes:
- the cache is class `Cache.TtlCache`;
- the client's global `state` object is class `AppState.Dashboard`.

Loops the source runs are methods with loop invariants, each proved equal to a specification function:
- `getApiKeys` is `ApiKeys.GetApiKeys`, proved equal to `ApiKeys.Pool`;
- the model/credential loop is `ModelFallback.TryModels` and `ModelFallback.TryKeys`, proved equal to `ModelFallback.Fallback`.

The properties are proved about those functions.

Modules, one per file:

| file | module | models |
|---|---|---|
| wrappers.dfy | `Wrappers` | `Option`, `Result` |
| text.dfy | `Text` | `trim`, `startsWith`, `includes`, `indexOf`, ASCII `toLowerCase` |
| cache.dfy | `Cache` | `getFromCache`, `putInCache` |
| api_keys.dfy | `ApiKeys` | `getApiKeys` |
| fallback.dfy | `ModelFallback` | `truncateContent`, the prompt, `callOpenRouterSummarize` |
| handler.dfy | `SummarizeHandler` | the exported request handler |
| links.dfy | `LinkModel` | the pure helpers of app.js |
| app_state.dfy | `AppState` | the `state` object and its handlers |

### How the fallback loop is represented

A call of `callOpenRouterSummarize` produces a `Run`. It holds the outcome, which is the summary or the error thrown. It also holds the events in order:
- `Wait(m)` is the pause before model `m`;
- `Attempt(m, k, key, response)` is one request.

`Judge` classifies a response the way the body of the credential loop does:
- 429 and 401 record the error and exhaust the credential;
- 404 records the error and goes on with the next credential;
- any other failure status is thrown and caught, which records it and goes on;
- a success reply without a message is thrown and caught as well;
- a thrown transport error is caught; it exhausts the credential only if its message starts with `429:`.

### Where the code and its description differ (the code is followed)

- **A 404 from the model endpoint.** It goes on with the next credential for the same model (`api/summarize.js:219`). It does not abandon the model.
- **Any other failure status.** It does not abort the call. It is thrown inside the `try` and caught at `api/summarize.js:242-248`, which goes on with the next credential.
- **The meta-description fallback.** When Readability yields an article with empty text, the fallback replaces the article's title and excerpt too, not only its text.
- **The handler's 400 reply.** It is also given for an empty-string url.
- **`handleSummarize` on success.** It does not clear an earlier `isError` flag on the link. The multi-entry path does clear it on each sub-entry.
- **A new multi-URL link with no url.** It is stored with url `https://`, because normalisation prefixes the empty string.

## Model

| member | source | states |
|---|---|---|
| `Cache.TtlCache.Get` | api/summarize.js:61-69 | Returns what a read sees. A read strictly after expiry deletes that key only; otherwise the map is unchanged |
| `Cache.TtlCache.Put` | api/summarize.js:71-73 | Overwrites the key with expiry `now + ttl*1000`. Every read up to that instant returns the value; reads of other keys are unaffected |
| `ApiKeys.DedupFromMembers` | api/summarize.js:103-109 | De-duplication yields no duplicates and exactly the elements not already seen |
| `ApiKeys.DedupFromOrder` | api/summarize.js:103-109 | De-duplication keeps first-seen order |
| `ApiKeys.NumberedMembers` | api/summarize.js:89-95 | A key is among the numbered ones iff one of variables 1..n contributes it |
| `ApiKeys.NumberedTrimmed` | api/summarize.js:89-95 | Every numbered key is trimmed and non-blank |
| `ApiKeys.PoolProperties` | api/summarize.js:78-112 | The pool is duplicate-free and holds only trimmed non-blank keys. It holds exactly the keys contributed by variables 1..10 and the fallback, in first-seen order of numbered-then-fallback |
| `ApiKeys.GetApiKeys` | api/summarize.js:78-112 | The push loop plus `seen`-set filter returns exactly `Pool(env)`, so it is duplicate-free and trimmed |
| `ModelFallback.Truncate` | api/summarize.js:143-146 | The result has length `min(len, maxChars)` and is a prefix of the input; input that fits (including `''`) is returned whole |
| `ModelFallback.PageTextLayout` | api/summarize.js:149 | The page text is `title\n\n` when there is a title, then `excerpt\n\n` when there is an excerpt, then the body, each part at its own offset; its length is the sum of the present parts |
| `ModelFallback.UserPromptCarriesTruncatedPage` | api/summarize.js:149-162 | The user message ends with the first `min(len, 20000)` characters of the page text |
| `ModelFallback.Decimal` | api/summarize.js:232 | The status in an API error message is a non-empty string of decimal digits with no leading zero |
| `ModelFallback.DecimalValue` | api/summarize.js:232 | The digits read back as the status: decimal rendering is inverted by reading the digits |
| `ModelFallback.JudgeCases` | api/summarize.js:188-248 | A response exhausts its credential iff it is a 429 or 401 reply, or a thrown error whose message starts with `429:`. It is a summary iff it is a success status with a non-empty `content` or `text`, and the message is content-else-text. For a failure status other than 429, 404 and 401, and for a success reply without a message, it is what the catch block does with the error thrown, which does not exhaust the credential |
| `ModelFallback.FallbackSchedule` | api/summarize.js:171-251 | Pauses and requests come in strictly increasing model-major, credential-minor order, so no pair is requested twice. Every request uses the credential at its index; pauses come only before later models |
| `ModelFallback.FallbackKeys` | api/summarize.js:188-248 | No request uses a credential exhausted before it, whether earlier in the same call or before the loop position |
| `ModelFallback.FallbackResponses` | api/summarize.js:193-207 | Every request recorded uses a model and the credential at its index, and the response recorded for it is what the endpoint answers to that model's request with that credential |
| `ModelFallback.FallbackAttemptBound` | api/summarize.js:171-251 | The number of requests is at most the number of remaining (model, credential) pairs |
| `ModelFallback.FallbackSuccess` | api/summarize.js:233-241 | The call succeeds iff its last event is a request whose reply carries a message, and that message is the result |
| `ModelFallback.FallbackEarlierFailed` | api/summarize.js:188-249 | Every request before the last event failed: the first message ends the call |
| `ModelFallback.FallbackFailure` | api/summarize.js:253 | A failed call throws the error of the last failed request, else the one recorded before, else the fixed all-models-failed error |
| `ModelFallback.FallbackExhaustive` | api/summarize.js:165-253 | A failed call requested every remaining (model, credential) pair unless its credential was exhausted first. It also paused before every later model |
| `ModelFallback.FallbackNoSkip` | api/summarize.js:171-249 | Nothing is passed over: before every event, each (model, credential) pair scheduled earlier was requested or had its credential exhausted (before the start or by an earlier request), and every pause owed before it took place |
| `ModelFallback.FromStartProperties` | api/summarize.js:165-253 | For a whole call from the first model with nothing exhausted: schedule order, credentials at their index, every response the endpoint's answer to the request sent, no resend after exhaustion, the request bound, the success iff and its message, earlier requests failed, the failure error, a failed call tried every pair not exhausted and paused before every later model, and no event passes over an unexhausted pair or a pause, so a success is the endpoint's first message in schedule order |
| `ModelFallback.HandleResponse` | api/summarize.js:193-248 | The try/catch body of the credential loop: a message ends the call; otherwise the error becomes `lastError` and the credential is exhausted exactly when `Judge` says so |
| `ModelFallback.TryKeys` | api/summarize.js:188-249 | The credential loop for one model produces exactly the events and state that `Fallback` prescribes |
| `ModelFallback.TryModels` | api/summarize.js:165-253 | The nested loops produce exactly the outcome and events of `FallbackFromStart` |
| `ModelFallback.CallSummarize` | api/summarize.js:148-254 | Builds the prompt and runs the loop. Requests are in schedule order, each response is the endpoint's answer to the request sent, none resent after exhaustion, at most models×credentials of them; no request passes over an earlier pair whose credential is not exhausted, nor a pause; the first message ends the call; a failure tried every pair not exhausted, paused before every later model and throws the last error |
| `SummarizeHandler.Respond` | api/summarize.js:256-340 | 405 iff not POST. 400 iff the url is missing, not a string or empty. A cache hit gives 200 with the cached fields and `cached: true`. An admitted request that misses the cache is answered exactly as `Computed` says |
| `SummarizeHandler.FreshSummaryComesFromModel` | api/summarize.js:284-339 | A fresh 200 needs a fetched page with readable text or excerpt. It carries the extracted title and excerpt and the non-empty message of the last request, a success reply; every earlier request failed |
| `SummarizeHandler.SummarizationFailure` | api/summarize.js:316-332 | Any other 500 is `Summarization failed: ` plus the last error of a call that tried every (model, credential) pair not exhausted |
| `SummarizeHandler.RepeatWithinTtlIsCached` | api/summarize.js:269-339 | After a fresh summary stored at `storedAt`, the same request at any instant up to 24 hours after `storedAt` is answered from the cache with identical fields and `cached: true` |
| `SummarizeHandler.RepeatAfterTtlIsRecomputed` | api/summarize.js:269-339 | Strictly more than 24 hours after `storedAt`, the same request is answered as a cache miss, exactly as `Computed` says for the new pool, fetch and endpoint |
| `SummarizeHandler.Computed` | api/summarize.js:275-340 | After a cache miss: 500 `No API keys configured` iff the pool is empty; 502 FETCH_BLOCKED iff a pool exists and the fetch fails; 422 NO_CONTENT iff the page is fetched but has neither text nor excerpt; a fresh 200 only past all three; nothing else than 200, 422, 500 or 502 |
| `SummarizeHandler.ModelRunDecides` | api/summarize.js:306-332 | Past the pool, fetch and content checks, a successful model call gives 200 with the extracted title and excerpt, the message and `cached: false`; a failed one gives 500 `Summarization failed: ` plus the last error |
| `SummarizeHandler.Compute` | api/summarize.js:275-334 | Gathering the pool, fetching, extracting and calling the models replies exactly as `Computed` says for the pool `getApiKeys` builds |
| `SummarizeHandler.Handle` | api/summarize.js:256-340 | The handler replies as `Respond` says at the instant `now` of the read. Only an admitted request touches the cache (a stale entry is evicted), and only a fresh summary is stored, expiring 24 hours after the later instant `storedAt` of the write |
| `LinkModel.SubsequenceElements` | app.js:616-630 | A subsequence holds only elements of the original list |
| `LinkModel.FilteredLinksSpec` | app.js:616-630 | The listed links are a subsequence of the stored ones. A link is listed iff it matches the lower-cased query in title, url, contributor or a tag, the active category (or "All") and the active tag (or none), and then as many times as it is stored |
| `LinkModel.WithoutSpec` | app.js:814-818 | Deleting keeps an order-preserving subsequence holding exactly the links with another id, and shrinks the list by the number of links with that id |
| `LinkModel.FindFirst` | app.js:390 | The index found (`findIndex` for links, and the entry `find` returns among sub-entries at app.js:979) is that of the first element with the id; `None` means none has it |
| `LinkModel.ClearSummaries` | app.js:171-181 | No summary on the link or its sub-entries. Sub-entries keep their count, order and other fields (none when absent); every other link field is unchanged |
| `LinkModel.ClearSummariesIdempotent` | app.js:171-181 | Clearing twice equals clearing once |
| `Text.FirstIndex` | app.js:168 | The first position of a character, with none before it |
| `LinkModel.StripTagsSubsequence` | app.js:166-169 | Stripping only deletes characters |
| `LinkModel.StripTagsTagFree` | app.js:166-169 | The result has no `<` followed later by a `>` |
| `LinkModel.StripTagsKeepsTagFree` | app.js:166-169 | Text without tags is returned unchanged |
| `LinkModel.StripTagsIdempotent` | app.js:166-169 | Stripping twice equals stripping once |
| `LinkModel.NormalizeUrl` | app.js:401 | The result starts with `http` and ends with the given url; it equals the url iff the url already started with `http`, and otherwise it is `https://` followed by the url |
| `LinkModel.NormalizeUrlIdempotent` | app.js:401 | Normalising twice changes nothing |
| `LinkModel.NormalizeSubEntry` | app.js:392-396 | Keeps the id (or takes the generated one when absent) and the title. An empty url stays empty, any other is normalised; summary and error flag are dropped |
| `LinkModel.NormalizeSubEntries` | app.js:392-396 | Same length and order; each sub-entry keeps its title and id (or takes the id generated for its position), keeps an empty url empty and otherwise gets the normalised url starting with `http`; no summary or error flag survives |
| `LinkModel.SummaryText` | app.js:941-952 | Never empty. It is the tag-stripped trimmed summary if non-empty, else the trimmed excerpt if non-empty, else the unavailable message |
| `LinkModel.ErrorText` | app.js:935-961 | For a non-OK answer the body's non-empty `error`, else `Summarization failed`, never empty. For a thrown error its message, or its name when the message is empty |
| `LinkModel.Resolve` | app.js:933-962 | An OK answer gives the non-empty fallback text; anything else gives `Failed to generate summary: ` followed by `ErrorText` of the answer |
| `LinkModel.Toggled` | app.js:27-32 | The result is light or dark; it is light iff the current theme is dark or absent |
| `LinkModel.ToggleTwice` | app.js:27-32 | Toggling twice restores dark or light, and ends on light from any other theme |
| `AppState.SpliceOne` | app.js:488-492 | `splice(index, 1)` on a non-empty list removes exactly one element when `index < len`: at `index`, at `len + index` for `-len <= index < 0`, and the first for `index < -len`, keeping the rest in order; `index >= len` removes nothing |
| `AppState.SummarizedOne` | app.js:850-875 | A sub-entry keeps its id, title and url. On an OK answer it gets the fallback text and a cleared error flag; otherwise `Failed to generate summary: ` plus `ErrorText` and the flag set |
| `AppState.SummarizedAll` | app.js:850-879 | Same length and order; each sub-entry keeps its id, title and url and gets, from the answer to its own request, the fallback text with the flag cleared or the failure message with the flag set |
| `AppState.Dashboard.constructor` | app.js:147-152 | The initial state holds the loaded links with summaries cleared, and the default filters and form state |
| `AppState.Dashboard.GetFilteredLinks` | app.js:616-630 | The state's filtered view is an order-preserving subsequence holding exactly the matching links, each as many times as it is stored |
| `AppState.Dashboard.HandleTagInput` | app.js:436-451 | Enter with non-blank input appends the trimmed tag and clears the input when the tag is absent; when it is already listed, tags and input stay as they are. Backspace on empty input pops the last tag. A duplicate-free tag list stays duplicate-free |
| `AppState.Dashboard.RemoveTag` | app.js:488-492 | The tags become `SpliceOne(tags, index)`; no duplicates appear |
| `AppState.Dashboard.DeleteLink` | app.js:814-818 | The links become those with another id, in order |
| `AppState.Dashboard.CloseModal` | app.js:349-356 | The modal closes; editing id, tags and sub-entries are reset |
| `AppState.Dashboard.HandleAddLink` | app.js:358-433 | A rejected form (blank title; single mode with blank url; multiple mode with no sub-entry) changes nothing. An edit replaces only the first link with the edited id, keeping its id and summary (same length). An add puts one new link first. Then the modal resets |
| `AppState.Dashboard.Summarize` | app.js:902-974 | Only the first link with the id changes, unless a summary exists and regeneration is declined. It gets the fallback text, or the failure message with the error flag set; the stored text is never empty |
| `AppState.Dashboard.SummarizeSubEntry` | app.js:976-1032 | Only the chosen sub-entry changes, and only on an OK answer, to the fallback text; a failure changes nothing |
| `AppState.Dashboard.SummarizeMultiEntry` | app.js:821-900 | A link with sub-entries, unless some has a summary and regeneration is declined, gets every sub-entry summarised from the answer to the request for its position and url; nothing else changes |
| `AppState.Dashboard.ToggleTheme` | app.js:27-32 | The theme becomes `Toggled(theme)` |

## Left out

- Network I/O: the page fetch, the chat-completion POST and the client's request to `/api/summarize`. Their results are parameters (`Page`, the endpoint function, `ClientAnswer`).
- The headers and JSON encoding of those requests.
- Reading JSON from a reply. A reply's `choices[0].message.content` and `choices[0].text` are given as strings, `''` when absent.
- HTML parsing and extraction with JSDOM and Readability. `Page` carries their results as inputs: the article, the meta description and the document title.
- `fetchHtml`'s own logic: headers, redirects and the non-OK check. It is one `Blocked` case.
- The `setTimeout` pause before later models. It is only recorded as a `Wait` event.
- dotenv loading and all `console` logging.
- The handler's outer catch, which answers 500 "Internal server error" when something unexpected throws (for example inside JSDOM).
- `Date.now()`: time is a parameter. The handler reads the clock twice, for the cache read (`now`) and for the write (`storedAt`), and both instants are given.
- Concurrent requests to the handler. Each call of `Handle` runs to completion; two calls interleaving at their awaits, and their cache writes racing, are not modelled.
- Date parsing and formatting in app.js. `Form.createdAt` is given.
- `crypto.randomUUID`: ids are given as `newId` and `freshIds`.
- Unicode case mapping. Lower-casing and the white space `trim` removes are limited to the characters listed in text.dfy.
- Everything that touches the DOM: rendering, modals, buttons, `escapeHTML`, event listeners.
- localStorage, including persisting links and the theme.
- The fallback to the built-in links when stored JSON fails to parse.
- The `Promise.all` concurrency of the multi-entry summarise. Sub-entries are treated one after another, and the success/failure count shown in an alert is not modelled.
- `alert` and `confirm` dialogs. A confirmation is a boolean argument.
- `api/saveLinks.js` and `api/loadLinks.js`, GitHub storage clients with no logic beyond request plumbing. They are not part of this model.
- `ModelFallback.Truncate`: the `!content` case for `null` and `undefined` is not modelled. Strings only.
- `ModelFallback.Truncate` and `ModelFallback.UserPromptCarriesTruncatedPage`: lengths and the cut are counted in Unicode characters (a Dafny `string` is a sequence of them), not in the UTF-16 code units that `content.length` and `slice` count. For text outside the Basic Multilingual Plane the source keeps fewer characters than the model, and a cut through a surrogate pair, which leaves a lone surrogate in the source, cannot be represented.
- `LinkModel.StripTags`: the falsy (`null`/`undefined`) input case is not modelled. Strings only.
- `AppState.Dashboard.HandleTagInput`: does not model `preventDefault` or the placeholder update.

=== FILE: api_keys.dfy ===
/**
 * `getApiKeys` of api/summarize.js: the credential pool built from the numbered
 * variables OPENROUTER_API_KEY_1 .. OPENROUTER_API_KEY_10 followed by the
 * unnumbered OPENROUTER_API_KEY, each trimmed, blank ones dropped, duplicates
 * removed keeping the first occurrence.
 */
module ApiKeys {
  import opened Wrappers
  import opened Text

  /** How many numbered variables are consulted. */
  const MaxNumberedKeys: nat := 10

  /**
   * The process environment as far as the pool is concerned: the values of the set
   * variables OPENROUTER_API_KEY_<i>, by `i`, and of OPENROUTER_API_KEY if set.
   */
  datatype Env = Env(numbered: map<nat, string>, fallback: Option<string>)

  /** The value of OPENROUTER_API_KEY_<i>, if set. */
  function NumberedVar(env: Env, i: nat): Option<string> {
    if i in env.numbered then Some(env.numbered[i]) else None
  }

  /** What one variable contributes: its trimmed value when it is set and not blank after trimming. */
  function Usable(v: Option<string>): seq<string>
  {
    if v.Some? && Trim(v.value) != [] then [Trim(v.value)] else []
  }

  /** The contributions of numbered variables 1 .. n, in index order. */
  function Numbered(env: Env, n: nat): seq<string>
  {
    if n == 0 then [] else Numbered(env, n - 1) + Usable(NumberedVar(env, n))
  }

  /** Every key gathered before de-duplication: the numbered ones, then the fallback one. */
  function Collected(env: Env): seq<string>
  {
    Numbered(env, MaxNumberedKeys) + Usable(env.fallback)
  }

  /** The elements of `s` not in `seen`, each kept at its first occurrence only. */
  function DedupFrom(s: seq<string>, seen: set<string>): seq<string>
  {
    if s == [] then []
    else if s[0] in seen then DedupFrom(s[1..], seen)
    else [s[0]] + DedupFrom(s[1..], seen + {s[0]})
  }

  /** The pool `getApiKeys` returns. */
  function Pool(env: Env): seq<string>
  {
    DedupFrom(Collected(env), {})
  }

  predicate NoDuplicates(s: seq<string>) {
    forall i, j :: 0 <= i < j < |s| ==> s[i] != s[j]
  }

  /** De-duplication keeps exactly the elements of `s` outside `seen`, each once. */
  lemma {:induction false} DedupFromMembers(s: seq<string>, seen: set<string>)
    ensures var r := DedupFrom(s, seen);
      NoDuplicates(r) && forall x :: x in r <==> x in s && x !in seen
  {
    if s != [] {
      if s[0] in seen {
        DedupFromMembers(s[1..], seen);
        assert forall x :: x in s <==> x == s[0] || x in s[1..];
      } else {
        DedupFromMembers(s[1..], seen + {s[0]});
        assert forall x :: x in s <==> x == s[0] || x in s[1..];
      }
    }
  }

  /** `x` and `y` both occur in `s`, and `x` first occurs before `y` does. */
  predicate SeenBefore(x: string, y: string, s: seq<string>) {
    x in s && y in s && FirstIndex(s, x) < FirstIndex(s, y)
  }

  /** Every element of `r` occurs in `s`, and earlier in `r` means first seen earlier in `s`. */
  predicate FirstSeenOrder(r: seq<string>, s: seq<string>) {
    forall i, j :: 0 <= i < j < |r| ==> SeenBefore(r[i], r[j], s)
  }

  /** First-seen order in the tail of `s` is first-seen order in `s` when the head of `s` is not involved. */
  lemma OrderShift(r: seq<string>, s: seq<string>)
    requires s != [] && FirstSeenOrder(r, s[1..]) && s[0] !in r
    ensures FirstSeenOrder(r, s)
  {
    forall i, j | 0 <= i < j < |r|
      ensures SeenBefore(r[i], r[j], s)
    {
      assert SeenBefore(r[i], r[j], s[1..]);
      assert r[i] in s[1..] && r[j] in s[1..];
      assert FirstIndex(s, r[i]) == 1 + FirstIndex(s[1..], r[i]);
      assert FirstIndex(s, r[j]) == 1 + FirstIndex(s[1..], r[j]);
    }
  }

  /** Putting the head of `s` in front keeps first-seen order, since it is seen first. */
  lemma OrderCons(rest: seq<string>, s: seq<string>)
    requires s != [] && FirstSeenOrder(rest, s) && s[0] !in rest
    requires forall y :: y in rest ==> y in s
    ensures FirstSeenOrder([s[0]] + rest, s)
  {
    var r := [s[0]] + rest;
    forall i, j | 0 <= i < j < |r|
      ensures SeenBefore(r[i], r[j], s)
    {
      assert r[j] == rest[j - 1];
      assert r[j] in rest;
      if i == 0 {
        assert FirstIndex(s, r[i]) == 0;
        assert r[j] != s[0];
      } else {
        assert r[i] == rest[i - 1];
        assert SeenBefore(rest[i - 1], rest[j - 1], s);
      }
    }
  }

  /** De-duplication keeps first-seen order. */
  lemma {:induction false} DedupFromOrder(s: seq<string>, seen: set<string>)
    ensures FirstSeenOrder(DedupFrom(s, seen), s)
  {
    if s != [] {
      var seen' := if s[0] in seen then seen else seen + {s[0]};
      var rest := DedupFrom(s[1..], seen');
      DedupFromOrder(s[1..], seen');
      DedupFromMembers(s[1..], seen');
      OrderShift(rest, s);
      if s[0] !in seen {
        OrderCons(rest, s);
      }
    }
  }

  /** A key is among the numbered ones exactly when some variable 1 .. n contributes it. */
  lemma {:induction false} NumberedMembers(env: Env, n: nat)
    ensures forall x :: x in Numbered(env, n) <==> exists i :: 1 <= i <= n && x in Usable(NumberedVar(env, i))
  {
    if n > 0 {
      NumberedMembers(env, n - 1);
      var u := Usable(NumberedVar(env, n));
      assert Numbered(env, n) == Numbered(env, n - 1) + u;
      forall x | x in Numbered(env, n) ensures exists i :: 1 <= i <= n && x in Usable(NumberedVar(env, i)) {
        if x in u {
          assert 1 <= n <= n && x in Usable(NumberedVar(env, n));
        }
      }
      forall x, i | 1 <= i <= n && x in Usable(NumberedVar(env, i)) ensures x in Numbered(env, n) {
        if i < n {
          assert x in Numbered(env, n - 1);
        }
      }
    }
  }

  /** Every gathered key is trimmed and not blank. */
  lemma {:induction false} NumberedTrimmed(env: Env, n: nat)
    ensures forall x :: x in Numbered(env, n) ==> x != [] && Trim(x) == x
  {
    if n > 0 {
      NumberedTrimmed(env, n - 1);
      var u := Usable(NumberedVar(env, n));
      assert Numbered(env, n) == Numbered(env, n - 1) + u;
      if u != [] {
        TrimIdempotent(NumberedVar(env, n).value);
      }
    }
  }

  /**
   * The pool is duplicate-free, holds only trimmed non-blank keys, holds every key
   * some variable contributes (numbered 1 .. 10 or the fallback) and nothing else,
   * and lists them in first-seen order of the numbered-then-fallback sequence.
   */
  lemma PoolProperties(env: Env)
    ensures var p := Pool(env);
      && NoDuplicates(p)
      && (forall k :: k in p ==> k != [] && Trim(k) == k)
      && (forall k :: k in p <==>
            (exists i :: 1 <= i <= MaxNumberedKeys && k in Usable(NumberedVar(env, i))) || k in Usable(env.fallback))
      && FirstSeenOrder(p, Collected(env))
  {
    var c := Collected(env);
    DedupFromMembers(c, {});
    DedupFromOrder(c, {});
    NumberedMembers(env, MaxNumberedKeys);
    NumberedTrimmed(env, MaxNumberedKeys);
    if env.fallback.Some? {
      TrimIdempotent(env.fallback.value);
    }
    assert forall x :: x in c <==> x in Numbered(env, MaxNumberedKeys) || x in Usable(env.fallback);
  }

  /** `getApiKeys`: gathers the keys with a loop, then filters out repeats with a `seen` set. */
  method GetApiKeys(env: Env) returns (unique: seq<string>)
    ensures unique == Pool(env)
    ensures NoDuplicates(unique)
    ensures forall k :: k in unique ==> k != [] && Trim(k) == k
  {
    var keys: seq<string> := [];
    for i := 1 to MaxNumberedKeys + 1
      invariant keys == Numbered(env, i - 1)
    {
      var val := NumberedVar(env, i);
      if val.Some? && Trim(val.value) != [] {
        keys := keys + [Trim(val.value)];
      }
    }
    if env.fallback.Some? && Trim(env.fallback.value) != [] {
      keys := keys + [Trim(env.fallback.value)];
    }
    assert keys == Collected(env);

    var seen: set<string> := {};
    unique := [];
    for i := 0 to |keys|
      invariant DedupFrom(keys, {}) == unique + DedupFrom(keys[i..], seen)
    {
      DedupStep(keys, i, seen, unique);
      if keys[i] !in seen {
        seen := seen + {keys[i]};
        unique := unique + [keys[i]];
      }
    }
    PoolClean(env);
  }

  /** One step of the de-duplicating loop: the key at `i` is kept exactly when it was not seen yet. */
  lemma DedupStep(keys: seq<string>, i: nat, seen: set<string>, unique: seq<string>)
    requires i < |keys|
    ensures unique + DedupFrom(keys[i..], seen) ==
      if keys[i] in seen then unique + DedupFrom(keys[i + 1..], seen)
      else (unique + [keys[i]]) + DedupFrom(keys[i + 1..], seen + {keys[i]})
  {
    assert keys[i..][1..] == keys[i + 1..];
    var rest := DedupFrom(keys[i + 1..], seen + {keys[i]});
    assert unique + ([keys[i]] + rest) == (unique + [keys[i]]) + rest;
  }

  /** The two facts about the pool that `GetApiKeys` promises its callers. */
  lemma PoolClean(env: Env)
    ensures NoDuplicates(Pool(env))
    ensures forall k :: k in Pool(env) ==> k != [] && Trim(k) == k
  {
    PoolProperties(env);
  }
}

=== FILE: app_state.dfy ===
/**
 * The dashboard's global `state` object (app.js) and the handlers that change it:
 * tag editing, deleting and adding or editing a link, storing summaries, and the
 * theme switch. User input, generated ids, confirmations and the answers of
 * `/api/summarize` are parameters; rendering and storage are not modelled.
 */
module AppState {
  import opened Wrappers
  import opened Text
  import opened ApiKeys
  import opened LinkModel

  datatype UrlMode = Single | Multiple

  /** The key of a keydown event in the tag input. */
  datatype Key = Enter | Backspace | OtherKey

  /** The raw values of the link form's inputs; `createdAt` is the parsed date (or the current time). */
  datatype Form = Form(title: string, url: string, contributor: string, createdAt: int)

  const DefaultCategory: string := "Study Materials"

  /**
   * `s.splice(index, 1)`: a negative index counts from the end and is clamped to
   * the first element; an index at or past the end removes nothing.
   */
  function SpliceOne(s: seq<string>, index: int): (r: seq<string>)
    ensures index < |s| && s != [] ==> |r| == |s| - 1
    ensures index >= |s| ==> r == s
    ensures forall x :: x in r ==> x in s
    ensures 0 <= index < |s| ==> r[..index] == s[..index] && r[index..] == s[index + 1..]
    ensures -|s| <= index < 0 ==> r[..|s| + index] == s[..|s| + index] && r[|s| + index..] == s[|s| + index + 1..]
    ensures index < -|s| && s != [] ==> r == s[1..]
  {
    var start := if index >= 0 then index else if |s| + index >= 0 then |s| + index else 0;
    if start < |s| then s[..start] + s[start + 1..] else s
  }

  /**
   * The fields the form writes into a link, once validated: trimmed title, url
   * normalised, selected category, trimmed contributor, the tag list, the date and
   * the sub-entries normalised.
   */
  function Written(form: Form, category: string, tags: seq<string>, subs: seq<SubEntry>, freshIds: nat -> string,
                   id: string, summary: Option<string>, isError: bool): (l: Link)
    ensures l.id == id && l.summary == summary && l.isError == isError
    ensures l.title == Trim(form.title) && l.category == category && l.createdAt == form.createdAt
    ensures StartsWith(l.url, "http") && l.url == NormalizeUrl(Trim(form.url))
    ensures l.contributor == Some(Trim(form.contributor)) && l.tags == Some(tags)
    ensures l.subEntries == Some(NormalizeSubEntries(subs, freshIds))
  {
    Link(id, Trim(form.title), NormalizeUrl(Trim(form.url)), category, Some(Trim(form.contributor)), Some(tags),
         form.createdAt, Some(NormalizeSubEntries(subs, freshIds)), summary, isError)
  }

  /** The form is accepted: a title, and a url in single mode or a sub-entry in multiple mode. */
  predicate Accepted(form: Form, mode: UrlMode, subCount: nat) {
    && Trim(form.title) != ""
    && (mode == Single ==> Trim(form.url) != "")
    && (mode == Multiple ==> subCount > 0)
  }

  class Dashboard {
    var links: seq<Link>
    var searchQuery: string
    var activeCategory: string
    var activeTag: Option<string>
    var isModalOpen: bool
    var selectedCategory: string
    var tags: seq<string>
    var editingId: Option<string>
    var subEntries: seq<SubEntry>
    var urlMode: UrlMode
    /** The document's `data-theme` attribute, "" when absent. */
    var theme: string

    /**
     * The initial state with the loaded links (stored or built in), each with its
     * summaries cleared, and the saved theme or "dark".
     */
    constructor (loaded: seq<Link>, savedTheme: string)
      ensures |links| == |loaded| && forall i :: 0 <= i < |loaded| ==> links[i] == ClearSummaries(loaded[i])
      ensures searchQuery == "" && activeCategory == AllCategories && activeTag == None
      ensures !isModalOpen && selectedCategory == DefaultCategory && tags == [] && editingId == None
      ensures subEntries == [] && urlMode == Single
      ensures theme == if savedTheme == "" then "dark" else savedTheme
    {
      links := seq(|loaded|, i requires 0 <= i < |loaded| => ClearSummaries(loaded[i]));
      searchQuery := "";
      activeCategory := AllCategories;
      activeTag := None;
      isModalOpen := false;
      selectedCategory := DefaultCategory;
      tags := [];
      editingId := None;
      subEntries := [];
      urlMode := Single;
      theme := if savedTheme == "" then "dark" else savedTheme;
    }

    /**
     * `getFilteredLinks`: the stored links, in order, that match the search query,
     * the active category and the active tag, each as often as it is stored.
     */
    function GetFilteredLinks(): (r: seq<Link>)
      reads this
      ensures IsSubsequence(r, links)
      ensures forall l :: l in r <==> l in links && Matches(l, searchQuery, activeCategory, activeTag)
      ensures forall l :: multiset(r)[l] == if Matches(l, searchQuery, activeCategory, activeTag) then multiset(links)[l] else 0
    {
      FilteredLinksSpec(links, searchQuery, activeCategory, activeTag);
      FilteredLinks(links, searchQuery, activeCategory, activeTag)
    }

    /**
     * `handleTagInput`: Enter with a non-blank input appends the trimmed tag unless
     * it is already listed, and then clears the input; Backspace on an empty input
     * drops the last tag. Returns the input's new value. A tag list without
     * duplicates keeps none.
     */
    method HandleTagInput(key: Key, input: string) returns (inputAfter: string)
      modifies this`tags
      ensures key == Enter && Trim(input) != "" && Trim(input) !in old(tags) ==>
        tags == old(tags) + [Trim(input)] && inputAfter == ""
      ensures key == Enter && Trim(input) != "" && Trim(input) in old(tags) ==>
        tags == old(tags) && inputAfter == input
      ensures key == Backspace && input == "" && |old(tags)| > 0 ==>
        tags == old(tags)[..|old(tags)| - 1] && inputAfter == input
      ensures key == OtherKey || (key == Enter && Trim(input) == "") || (key == Backspace && (input != "" || old(tags) == [])) ==>
        tags == old(tags) && inputAfter == input
      ensures NoDuplicates(old(tags)) ==> NoDuplicates(tags)
      ensures forall t :: t in tags ==> t in old(tags) || t == Trim(input)
    {
      inputAfter := input;
      if key == Enter && Trim(input) != "" {
        var tag := Trim(input);
        if tag !in tags {
          tags := tags + [tag];
          inputAfter := "";
        }
      } else if key == Backspace && input == "" && |tags| > 0 {
        tags := tags[..|tags| - 1];
      }
    }

    /** `removeTag`: `tags.splice(index, 1)`. */
    method RemoveTag(index: int)
      modifies this`tags
      ensures tags == SpliceOne(old(tags), index)
      ensures NoDuplicates(old(tags)) ==> NoDuplicates(tags)
    {
      var start := if index >= 0 then index else if |tags| + index >= 0 then |tags| + index else 0;
      if start < |tags| {
        tags := tags[..start] + tags[start + 1..];
      }
    }

    /** `deleteLink`: keeps exactly the links whose id is not `id`, in order. */
    method DeleteLink(id: string)
      modifies this`links
      ensures links == Without(old(links), id)
      ensures IsSubsequence(links, old(links))
      ensures forall l :: l in links <==> l in old(links) && l.id != id
    {
      WithoutSpec(links, id);
      links := Without(links, id);
    }

    /** `closeModal`: the modal is closed and its editing state reset. */
    method CloseModal()
      modifies this`isModalOpen, this`editingId, this`tags, this`subEntries
      ensures !isModalOpen && editingId == None && tags == [] && subEntries == []
    {
      isModalOpen := false;
      editingId := None;
      tags := [];
      subEntries := [];
    }

    /**
     * `handleAddLink`: a rejected form changes nothing. Otherwise, when editing, the
     * link with the edited id (if still there) is replaced in place by one keeping
     * its id and summary, and when adding, a new link with `newId` is put first;
     * then the modal is closed. `freshIds` are the ids generated for sub-entries
     * that have none.
     */
    method HandleAddLink(form: Form, newId: string, freshIds: nat -> string) returns (saved: bool)
      modifies this`links, this`isModalOpen, this`editingId, this`tags, this`subEntries
      ensures saved == Accepted(form, old(urlMode), |old(subEntries)|)
      ensures !saved ==>
        && links == old(links) && tags == old(tags) && subEntries == old(subEntries)
        && editingId == old(editingId) && isModalOpen == old(isModalOpen)
      ensures saved ==> !isModalOpen && editingId == None && tags == [] && subEntries == []
      ensures saved && old(editingId).Some? && old(editingId).value != "" ==>
        var i := FindIndex(old(links), old(editingId).value);
        && |links| == |old(links)|
        && (i.None? ==> links == old(links))
        && (i.Some? ==>
              && links[i.value] == Written(form, selectedCategory, old(tags), old(subEntries), freshIds,
                                           old(links)[i.value].id, old(links)[i.value].summary, old(links)[i.value].isError)
              && forall j :: 0 <= j < |links| && j != i.value ==> links[j] == old(links)[j])
      ensures saved && (old(editingId).None? || old(editingId).value == "") ==>
        links == [Written(form, selectedCategory, old(tags), old(subEntries), freshIds, newId, None, false)] + old(links)
    {
      if !Accepted(form, urlMode, |subEntries|) {
        return false;
      }
      if editingId.Some? && editingId.value != "" {
        var index := FindIndex(links, editingId.value);
        if index.Some? {
          var old_ := links[index.value];
          links := links[index.value := Written(form, selectedCategory, tags, subEntries, freshIds, old_.id, old_.summary, old_.isError)];
        }
      } else {
        var created := Written(form, selectedCategory, tags, subEntries, freshIds, newId, None, false);
        links := [created] + links;
      }
      CloseModal();
      saved := true;
    }

    /**
     * `handleSummarize`: for the first link with `id`, unless it already has a
     * summary and the user declines to regenerate, stores the text of an OK answer
     * or, for a failure, the failure message with the error flag set. The stored
     * text is never empty. Nothing else changes.
     */
    method Summarize(id: string, regenerate: bool, answer: ClientAnswer)
      modifies this`links
      ensures |links| == |old(links)|
      ensures var i := FindIndex(old(links), id);
        if i.None? || (old(links)[i.value].summary.Some? && old(links)[i.value].summary.value != "" && !regenerate) then
          links == old(links)
        else
          && (forall j :: 0 <= j < |links| && j != i.value ==> links[j] == old(links)[j])
          && match Resolve(answer, SummaryUnavailableText)
             case Produced(text) => links[i.value] == old(links)[i.value].(summary := Some(text))
             case Reported(message) => links[i.value] == old(links)[i.value].(summary := Some(message), isError := true)
      ensures forall j :: 0 <= j < |links| && links[j] != old(links)[j] ==> links[j].summary.Some? && links[j].summary.value != ""
    {
      var index := FindIndex(links, id);
      if index.None? {
        return;
      }
      var link := links[index.value];
      if link.summary.Some? && link.summary.value != "" && !regenerate {
        return;
      }
      var update := Resolve(answer, SummaryUnavailableText);
      match update
      case Produced(text) =>
        links := links[index.value := link.(summary := Some(text))];
      case Reported(message) =>
        links := links[index.value := link.(summary := Some(message), isError := true)];
    }

    /**
     * `handleSummarizeSubEntry`: for the first sub-entry with `subId` of the first
     * link with `linkId`, unless it already has a summary and the user declines,
     * stores the text of an OK answer; a failure is only reported to the user and
     * changes nothing.
     */
    method SummarizeSubEntry(linkId: string, subId: string, regenerate: bool, answer: ClientAnswer)
      modifies this`links
      ensures |links| == |old(links)|
      ensures var i := FindIndex(old(links), linkId);
        var u := Resolve(answer, SubSummaryUnavailableText);
        if i.None? || u.Reported? then links == old(links)
        else
          var subs := old(links)[i.value].subEntries.GetOr([]);
          var k := FindSubEntry(subs, subId);
          if k.None? || (subs[k.value].summary.Some? && subs[k.value].summary.value != "" && !regenerate) then
            links == old(links)
          else
            && (forall j :: 0 <= j < |links| && j != i.value ==> links[j] == old(links)[j])
            && links[i.value] == old(links)[i.value].(subEntries := Some(subs[k.value := subs[k.value].(summary := Some(u.text))]))
    {
      var index := FindIndex(links, linkId);
      if index.None? {
        return;
      }
      var link := links[index.value];
      var subs := link.subEntries.GetOr([]);
      var k := FindSubEntry(subs, subId);
      if k.None? {
        return;
      }
      var sub := subs[k.value];
      if sub.summary.Some? && sub.summary.value != "" && !regenerate {
        return;
      }
      var update := Resolve(answer, SubSummaryUnavailableText);
      if update.Produced? {
        links := links[index.value := link.(subEntries := Some(subs[k.value := sub.(summary := Some(update.text))]))];
      }
    }

    /**
     * `handleSummarizeMultiEntry`: for the first link with `linkId` that has
     * sub-entries, unless one of them has a summary and the user declines, every
     * sub-entry gets the outcome of its own request (`answerFor(i, url)` for the
     * i-th, sent with its url): the text with the error flag cleared, or the failure
     * message with the flag set. Ids, titles, urls and order are kept.
     */
    method SummarizeMultiEntry(linkId: string, regenerate: bool, answerFor: (nat, string) -> ClientAnswer)
      modifies this`links
      ensures |links| == |old(links)|
      ensures var i := FindIndex(old(links), linkId);
        if i.None? || old(links)[i.value].subEntries.GetOr([]) == []
           || (HasSummary(old(links)[i.value].subEntries.value) && !regenerate) then
          links == old(links)
        else
          var subs := old(links)[i.value].subEntries.value;
          && (forall j :: 0 <= j < |links| && j != i.value ==> links[j] == old(links)[j])
          && links[i.value] == old(links)[i.value].(subEntries := Some(SummarizedAll(subs, answerFor)))
    {
      var index := FindIndex(links, linkId);
      if index.None? {
        return;
      }
      var link := links[index.value];
      if link.subEntries.None? || link.subEntries.value == [] {
        return;
      }
      if HasSummary(link.subEntries.value) && !regenerate {
        return;
      }
      links := links[index.value := link.(subEntries := Some(SummarizedAll(link.subEntries.value, answerFor)))];
    }

    /** `toggleTheme`. */
    method ToggleTheme()
      modifies this`theme
      ensures theme == Toggled(old(theme))
    {
      var current := if theme == "" then "dark" else theme;
      theme := if current == "dark" then "light" else "dark";
    }
  }

  /** Some sub-entry has a non-empty summary. */
  predicate HasSummary(subs: seq<SubEntry>) {
    exists s :: s in subs && s.summary.Some? && s.summary.value != ""
  }

  /**
   * One sub-entry after the multi-entry request for its url: on an OK answer the
   * fallback text with the error flag cleared, otherwise the failure message with
   * the flag set; id, title and url are kept.
   */
  function SummarizedOne(sub: SubEntry, answer: ClientAnswer): (r: SubEntry)
    ensures r.id == sub.id && r.title == sub.title && r.url == sub.url
    ensures r.summary.Some? && r.summary.value != ""
    ensures r.isError <==> !(answer.Answer? && answer.ok)
    ensures !r.isError ==> r.summary.value == SummaryText(answer.summary, answer.excerpt, MultiSummaryUnavailableText)
    ensures r.isError ==> r.summary.value == FailedSummaryPrefix + ErrorText(answer)
  {
    match Resolve(answer, MultiSummaryUnavailableText)
    case Produced(text) => sub.(summary := Some(text), isError := false)
    case Reported(message) => sub.(summary := Some(message), isError := true)
  }

  /**
   * All sub-entries after the multi-entry request: `answerFor(i, url)` is the answer
   * to the request sent for the i-th sub-entry with its url. The entries keep their
   * order, ids, titles and urls; each gets a non-empty text, flagged as an error
   * exactly when its own request failed.
   */
  function SummarizedAll(subs: seq<SubEntry>, answerFor: (nat, string) -> ClientAnswer): (r: seq<SubEntry>)
    ensures |r| == |subs|
    ensures forall i :: 0 <= i < |subs| ==>
      var answer := answerFor(i, subs[i].url);
      && r[i].id == subs[i].id && r[i].title == subs[i].title && r[i].url == subs[i].url
      && r[i].summary.Some? && r[i].summary.value != ""
      && (r[i].isError <==> !(answer.Answer? && answer.ok))
      && (!r[i].isError ==> r[i].summary.value == SummaryText(answer.summary, answer.excerpt, MultiSummaryUnavailableText))
      && (r[i].isError ==> r[i].summary.value == FailedSummaryPrefix + ErrorText(answer))
  {
    seq(|subs|, i requires 0 <= i < |subs| => SummarizedOne(subs[i], answerFor(i, subs[i].url)))
  }
}

=== FILE: cache.dfy ===
/**
 * The in-memory summary cache of api/summarize.js: a map from key to a value and
 * the instant (in milliseconds) after which it is stale. Time is passed in by the
 * caller instead of being read from the clock.
 */
module Cache {
  import opened Wrappers

  /** Default time to live of an entry: 24 hours, in seconds. */
  const CacheTtlSeconds: int := 60 * 60 * 24

  datatype Entry<V> = Entry(value: V, expiresAt: int)

  /** What a read at instant `now` sees in `entries`: the value, unless it has expired. */
  function LookupIn<V>(entries: map<string, Entry<V>>, key: string, now: int): (r: Option<V>)
    ensures r.Some? <==> key in entries && now <= entries[key].expiresAt
    ensures r.Some? ==> r.value == entries[key].value
  {
    if key in entries && now <= entries[key].expiresAt then Some(entries[key].value) else None
  }

  class TtlCache<V> {
    var entries: map<string, Entry<V>>

    constructor ()
      ensures entries == map[]
    {
      entries := map[];
    }

    /** The value a read of `key` at `now` returns. */
    function Lookup(key: string, now: int): Option<V>
      reads this
    {
      LookupIn(entries, key, now)
    }

    /**
     * `getFromCache`: returns the value while `now <= expiresAt`; once `now` is past the
     * expiry instant it returns nothing and deletes the entry. No other entry changes.
     */
    method Get(key: string, now: int) returns (r: Option<V>)
      modifies this
      ensures r == old(Lookup(key, now))
      ensures key in old(entries) && now > old(entries)[key].expiresAt ==> entries == old(entries) - {key}
      ensures !(key in old(entries) && now > old(entries)[key].expiresAt) ==> entries == old(entries)
      ensures key !in entries ==> r == None
    {
      if key !in entries {
        return None;
      }
      var e := entries[key];
      if now > e.expiresAt {
        entries := entries - {key};
        return None;
      }
      r := Some(e.value);
    }

    /**
     * `putInCache`: stores `value` under `key` until `now + ttlSeconds * 1000`,
     * overwriting any earlier entry; every read of `key` up to that instant returns
     * `value`, and reads of every other key are unaffected.
     */
    method Put(key: string, value: V, ttlSeconds: int, now: int)
      modifies this
      ensures entries == old(entries)[key := Entry(value, now + ttlSeconds * 1000)]
      ensures forall t :: t <= now + ttlSeconds * 1000 ==> Lookup(key, t) == Some(value)
      ensures forall k, t :: k != key ==> Lookup(k, t) == old(Lookup(k, t))
    {
      entries := entries[key := Entry(value, now + ttlSeconds * 1000)];
    }
  }
}

=== FILE: fallback.dfy ===
/**
 * The summarisation caller of api/summarize.js: the prompt built from the
 * extracted page (`truncateContent` and the text composition of
 * `callOpenRouterSummarize`) and the loop that tries every free model with every
 * credential of the pool until one answers with a message.
 *
 * The chat-completion endpoint is an oracle from (request body, credential) to a
 * response. Within one call every (model, credential index) pair is requested at
 * most once; when the credential pool has no duplicates (as `getApiKeys`
 * guarantees) no (request, credential) pair is sent twice either, so a function
 * loses nothing against a live endpoint. With a duplicated credential, two
 * requests with it would get the same response here.
 */
module ModelFallback {
  import opened Wrappers
  import opened Text

  /** The candidate models, in the order they are tried. */
  const FreeModels: seq<string> := [
    "mistralai/mistral-7b-instruct:free",
    "meta-llama/llama-3.1-8b-instruct:free",
    "google/gemma-2-9b-it:free",
    "meta-llama/llama-3.2-3b-instruct:free"
  ]
  /** Pause before every model but the first (not modelled beyond the Wait event). */
  const RetryDelayMs: nat := 1500
  /** Character budget of the page text handed to the model. */
  const MaxPromptChars: nat := 20000
  const MaxTokens: nat := 200
  const Temperature: real := 0.1

  const SystemPrompt: string :=
    "You are a precise summarization assistant. Create ultra-concise summaries using minimal sentences while capturing core information."
  const UserPromptHead: string :=
    "Summarize this web page in 2-3 sentences maximum. Be precise and capture only the most essential information.\n\nSource URL: "
  const NoMessageText: string := "No message returned from OpenRouter"
  const ApiErrorPrefix: string := "OpenRouter API error: "
  const AllModelsFailedText: string :=
    "All free models failed or rate-limited. Please try again in a few minutes."

  // ---------------------------------------------------------------------------
  // Prompt construction

  function Min(a: int, b: int): int { if a <= b then a else b }

  /**
   * `truncateContent`: the empty string stays empty; anything else is cut to its
   * first `maxChars` characters, and is returned whole when it already fits.
   */
  function Truncate(content: string, maxChars: nat): (r: string)
    ensures |r| == Min(|content|, maxChars)
    ensures r == content[..|r|]
    ensures |content| <= maxChars ==> r == content
  {
    if content == [] then []
    else if |content| > maxChars then content[..maxChars]
    else content
  }

  /** The page text: the title and the excerpt, each followed by a blank line when present, then the body. */
  function PageText(title: string, excerpt: string, content: string): string
  {
    (if title != [] then title + "\n\n" else []) + (if excerpt != [] then excerpt + "\n\n" else []) + content
  }

  /**
   * Layout of the page text: the title block when there is a title, then right
   * after it the excerpt block when there is an excerpt, then the body; its length
   * is exactly that of the present parts.
   */
  lemma PageTextLayout(title: string, excerpt: string, content: string)
    ensures var t := PageText(title, excerpt, content);
      var e := if title != [] then |title| + 2 else 0;
      var b := e + (if excerpt != [] then |excerpt| + 2 else 0);
      && |t| == b + |content|
      && (title != [] ==> t[..e] == title + "\n\n")
      && (excerpt != [] ==> t[e..b] == excerpt + "\n\n")
      && t[b..] == content
  {
    var tb := if title != [] then title + "\n\n" else [];
    var eb := if excerpt != [] then excerpt + "\n\n" else [];
    var t := PageText(title, excerpt, content);
    assert t == tb + eb + content;
    assert t[..|tb|] == tb;
    assert t[|tb|..|tb| + |eb|] == eb;
    assert t[|tb| + |eb|..] == content;
  }

  datatype ChatMessage = ChatMessage(role: string, content: string)

  /** The user message: the instruction, the source URL and the truncated page text. */
  function UserPrompt(url: string, truncated: string): string
  {
    UserPromptHead + url + "\n\nContent:\n" + truncated
  }

  /** The two messages sent with every attempt. */
  function Messages(title: string, excerpt: string, content: string, url: string): seq<ChatMessage>
  {
    [ChatMessage("system", SystemPrompt),
     ChatMessage("user", UserPrompt(url, Truncate(PageText(title, excerpt, content), MaxPromptChars)))]
  }

  /**
   * What reaches the model is the page text cut to the budget: the user message
   * ends with the first `min(|page text|, 20000)` characters of the page text.
   */
  lemma UserPromptCarriesTruncatedPage(title: string, excerpt: string, content: string, url: string)
    ensures var page := PageText(title, excerpt, content);
      var user := Messages(title, excerpt, content, url)[1].content;
      var n := Min(|page|, MaxPromptChars);
      |user| >= n && user[|user| - n..] == page[..n]
  {
    var page := PageText(title, excerpt, content);
    var cut := Truncate(page, MaxPromptChars);
    var user := UserPrompt(url, cut);
    assert user == (UserPromptHead + url + "\n\nContent:\n") + cut;
  }

  /** The request body of one attempt. */
  datatype ChatRequest = ChatRequest(model: string, messages: seq<ChatMessage>, maxTokens: nat, temperature: real)

  function RequestFor(model: string, messages: seq<ChatMessage>): ChatRequest
  {
    ChatRequest(model, messages, MaxTokens, Temperature)
  }

  // ---------------------------------------------------------------------------
  // Responses and errors

  /**
   * What one attempt yields: an HTTP reply (status, the body read as text on a
   * failure status, and `choices[0].message.content` / `choices[0].text` on
   * success, "" when absent), or an exception thrown by the transport or by
   * reading the reply.
   */
  datatype Response =
    | Reply(status: nat, body: string, content: string, text: string)
    | Thrown(message: string)

  predicate IsOk(status: nat) { 200 <= status <= 299 }

  /** The errors the loop records in `lastError`. */
  datatype ModelError =
    | RateLimited(body: string)
    | NotFound(body: string)
    | Unauthorized(body: string)
    | ApiError(status: nat, body: string)
    | NoMessage
    | Transport(message: string)
    | AllModelsFailed

  function DigitChar(d: nat): char
    requires d < 10
  {
    "0123456789"[d]
  }

  /** Decimal rendering of a status code. */
  function Decimal(n: nat): (r: string)
    ensures r != [] && forall i :: 0 <= i < |r| ==> '0' <= r[i] <= '9'
    ensures |r| > 1 ==> r[0] != '0'
  {
    if n < 10 then [DigitChar(n)] else Decimal(n / 10) + [DigitChar(n % 10)]
  }

  /** The number a string of decimal digits spells, most significant digit first. */
  function DigitsValue(s: string): nat
    requires forall i :: 0 <= i < |s| ==> '0' <= s[i] <= '9'
  {
    if s == [] then 0 else 10 * DigitsValue(s[..|s| - 1]) + (s[|s| - 1] as int - '0' as int)
  }

  /** `Decimal(n)` spells `n`, as `${res.status}` does. */
  lemma {:induction false} DecimalValue(n: nat)
    ensures DigitsValue(Decimal(n)) == n
  {
    var r := Decimal(n);
    assert DigitChar(n % 10) as int - '0' as int == n % 10;
    if n >= 10 {
      var q := n / 10;
      DecimalValue(q);
      assert r == Decimal(q) + [DigitChar(n % 10)];
      assert r[..|r| - 1] == Decimal(q);
      assert n == 10 * q + n % 10;
    }
  }

  /** The `message` of the `Error` object the source builds for each failure. */
  function ErrorMessage(e: ModelError): string
  {
    match e
    case RateLimited(body) => "429: " + body
    case NotFound(body) => "404: " + body
    case Unauthorized(body) => "401: " + body
    case ApiError(status, body) => ApiErrorPrefix + Decimal(status) + " " + body
    case NoMessage => NoMessageText
    case Transport(message) => message
    case AllModelsFailed => AllModelsFailedText
  }

  /** The verdict on one attempt: a summary, or an error and whether the credential is now exhausted. */
  datatype Verdict = Summary(message: string) | Failed(error: ModelError, exhausts: bool)

  /** The catch block: records the error, and exhausts the credential when its message starts with "429:". */
  function Caught(e: ModelError): Verdict
  {
    Failed(e, StartsWith(ErrorMessage(e), "429:"))
  }

  /**
   * How the body of the credential loop treats one response. The two errors the
   * source throws itself never exhaust the credential in its catch block (their
   * messages do not start with "429:"); `JudgeCases` proves that this agrees with
   * `Caught`.
   */
  function Judge(r: Response): Verdict
  {
    match r
    case Thrown(message) => Caught(Transport(message))
    case Reply(status, body, content, text) =>
      if status == 429 then Failed(RateLimited(body), true)
      else if status == 404 then Failed(NotFound(body), false)
      else if !IsOk(status) then
        (if status == 401 then Failed(Unauthorized(body), true) else Failed(ApiError(status, body), false))
      else
        var message := if content != [] then content else text;
        if message == [] then Failed(NoMessage, false) else Summary(message)
  }

  predicate Exhausts(r: Response) {
    Judge(r).Failed? && Judge(r).exhausts
  }

  /**
   * Only a 429 or a 401 reply exhausts a credential (besides a thrown error whose own
   * message starts with "429:"); a 404, any other failure status and an empty message
   * do not. A response is a summary exactly when it is a success status carrying a
   * non-empty message. For the errors the source throws itself, `Judge` is what the
   * catch block does with them.
   */
  lemma JudgeCases(r: Response)
    ensures Exhausts(r) <==>
      (r.Reply? && (r.status == 429 || r.status == 401)) || (r.Thrown? && StartsWith(r.message, "429:"))
    ensures Judge(r).Summary? <==>
      r.Reply? && IsOk(r.status) && (r.content != [] || r.text != [])
    ensures Judge(r).Summary? ==> Judge(r).message == if r.content != [] then r.content else r.text
    ensures r.Reply? && r.status != 429 && r.status != 404 && r.status != 401 && !IsOk(r.status) ==>
      Judge(r) == Caught(ApiError(r.status, r.body))
    ensures r.Reply? && IsOk(r.status) && r.content == [] && r.text == [] ==> Judge(r) == Caught(NoMessage)
  {
    if r.Reply? && r.status != 429 && r.status != 404 && r.status != 401 {
      if !IsOk(r.status) {
        assert ErrorMessage(ApiError(r.status, r.body))[0] == 'O';
      } else {
        assert ErrorMessage(NoMessage)[0] == 'N';
      }
    }
  }

  // ---------------------------------------------------------------------------
  // The fallback loop, as a specification

  /** The fixed inputs of one call: models, credential pool, messages and the endpoint. */
  datatype Config = Config(
    models: seq<string>,
    keys: seq<string>,
    messages: seq<ChatMessage>,
    endpoint: (ChatRequest, string) -> Response)

  /** What one call observably does: the pause before model `model`, or one request and its response. */
  datatype Event =
    | Wait(model: nat)
    | Attempt(model: nat, keyIndex: nat, key: string, response: Response)

  datatype Run = Run(outcome: Result<string, ModelError>, events: seq<Event>)

  /**
   * The loop from model `mi`, credential `ki` on, with the credentials in
   * `exhausted` skipped and `lastError` recorded so far. The pause before model
   * `mi + 1` is emitted when model `mi` is done.
   */
  function Fallback(c: Config, mi: nat, ki: nat, exhausted: set<string>, lastError: Option<ModelError>): Run
    decreases |c.models| - mi, |c.keys| - ki
  {
    if mi >= |c.models| then
      Run(Failure(lastError.GetOr(AllModelsFailed)), [])
    else if ki >= |c.keys| then
      var rest := Fallback(c, mi + 1, 0, exhausted, lastError);
      if mi + 1 < |c.models| then Run(rest.outcome, [Wait(mi + 1)] + rest.events) else rest
    else if c.keys[ki] in exhausted then
      Fallback(c, mi, ki + 1, exhausted, lastError)
    else
      var response := c.endpoint(RequestFor(c.models[mi], c.messages), c.keys[ki]);
      var event := Attempt(mi, ki, c.keys[ki], response);
      var verdict := Judge(response);
      if verdict.Summary? then
        Run(Success(verdict.message), [event])
      else
        var exhausted' := if verdict.exhausts then exhausted + {c.keys[ki]} else exhausted;
        var rest := Fallback(c, mi, ki + 1, exhausted', Some(verdict.error));
        Run(rest.outcome, [event] + rest.events)
  }

  /** A whole call: every model from the first, no credential exhausted, no error yet. */
  function FallbackFromStart(c: Config): Run
  {
    Fallback(c, 0, 0, {}, None)
  }

  // ---------------------------------------------------------------------------
  // Properties of the loop

  /** Where an event sits in the model-major, credential-minor schedule; a pause comes before every credential of its model. */
  function Slot(e: Event): int {
    if e.Wait? then -1 else e.keyIndex
  }

  predicate Precedes(a: Event, b: Event) {
    a.model < b.model || (a.model == b.model && Slot(a) < Slot(b))
  }

  /** Events are in strictly increasing schedule order: no pair is tried twice, pauses sit between models. */
  predicate InScheduleOrder(events: seq<Event>) {
    forall i, j :: 0 <= i < j < |events| ==> Precedes(events[i], events[j])
  }

  /** Every event lies in the schedule from (mi, ki) on; attempts use the credential at their index, pauses only precede later models. */
  predicate WithinSchedule(c: Config, events: seq<Event>, mi: nat, ki: nat) {
    forall i :: 0 <= i < |events| ==>
      var e := events[i];
      && e.model < |c.models|
      && (e.Wait? ==> mi < e.model)
      && (e.Attempt? ==>
            && e.keyIndex < |c.keys| && e.key == c.keys[e.keyIndex]
            && (mi < e.model || (mi == e.model && ki <= e.keyIndex)))
  }

  /** A credential whose response exhausted it is never sent again in the same call. */
  predicate NoResendAfterExhaustion(events: seq<Event>) {
    forall i, j :: 0 <= i < j < |events| && events[i].Attempt? && events[j].Attempt? && Exhausts(events[i].response)
      ==> events[j].key != events[i].key
  }

  lemma {:induction false} FallbackSchedule(c: Config, mi: nat, ki: nat, exhausted: set<string>, lastError: Option<ModelError>)
    ensures var ev := Fallback(c, mi, ki, exhausted, lastError).events;
      InScheduleOrder(ev) && WithinSchedule(c, ev, mi, ki)
    decreases |c.models| - mi, |c.keys| - ki
  {
    if mi >= |c.models| {
    } else if ki >= |c.keys| {
      FallbackSchedule(c, mi + 1, 0, exhausted, lastError);
      FallbackNextModel(c, mi, exhausted, lastError);
      ScheduleAfterWait(c, mi, ki, Fallback(c, mi + 1, 0, exhausted, lastError).events);
    } else if c.keys[ki] in exhausted {
      FallbackSchedule(c, mi, ki + 1, exhausted, lastError);
      FallbackSkip(c, mi, ki, exhausted, lastError);
    } else {
      var response := c.endpoint(RequestFor(c.models[mi], c.messages), c.keys[ki]);
      if Judge(response).Failed? {
        var exhausted' := if Judge(response).exhausts then exhausted + {c.keys[ki]} else exhausted;
        var lastError' := Some(Judge(response).error);
        FallbackSchedule(c, mi, ki + 1, exhausted', lastError');
        FallbackTryFailed(c, mi, ki, exhausted, lastError, response, exhausted', lastError');
        ScheduleAfterAttempt(c, mi, ki, response, Fallback(c, mi, ki + 1, exhausted', lastError').events);
      } else {
        FallbackTrySummary(c, mi, ki, exhausted, lastError, response);
        ScheduleAfterAttempt(c, mi, ki, response, []);
      }
    }
  }

  /** A request at (mi, ki) in front of a schedule from (mi, ki + 1) on. */
  lemma ScheduleAfterAttempt(c: Config, mi: nat, ki: nat, response: Response, rest: seq<Event>)
    requires mi < |c.models| && ki < |c.keys|
    requires InScheduleOrder(rest) && WithinSchedule(c, rest, mi, ki + 1)
    ensures var ev := [Attempt(mi, ki, c.keys[ki], response)] + rest;
      InScheduleOrder(ev) && WithinSchedule(c, ev, mi, ki)
  {
    var ev := [Attempt(mi, ki, c.keys[ki], response)] + rest;
    forall i, j | 0 <= i < j < |ev| ensures Precedes(ev[i], ev[j]) {
      assert ev[j] == rest[j - 1];
      if i > 0 {
        assert ev[i] == rest[i - 1];
      }
    }
    forall i | 0 <= i < |ev| ensures ev[i].model < |c.models| {
      if i > 0 {
        assert ev[i] == rest[i - 1];
      }
    }
  }

  /** The pause owed before model mi + 1 in front of a schedule from (mi + 1, 0) on. */
  lemma ScheduleAfterWait(c: Config, mi: nat, ki: nat, rest: seq<Event>)
    requires mi < |c.models|
    requires InScheduleOrder(rest) && WithinSchedule(c, rest, mi + 1, 0)
    ensures var ev := PendingWait(c, mi + 1) + rest;
      InScheduleOrder(ev) && WithinSchedule(c, ev, mi, ki)
  {
    var pre := PendingWait(c, mi + 1);
    var ev := pre + rest;
    forall i, j | 0 <= i < j < |ev| ensures Precedes(ev[i], ev[j]) {
      assert ev[j] == rest[j - |pre|];
      if i >= |pre| {
        assert ev[i] == rest[i - |pre|];
      }
    }
    forall i | 0 <= i < |ev| ensures ev[i].model < |c.models| {
      if i >= |pre| {
        assert ev[i] == rest[i - |pre|];
      }
    }
  }

  /**
   * Every request among `events` is one the loop could send, and the response
   * recorded for it is what the endpoint answers to that request with that
   * credential.
   */
  predicate AnsweredByEndpoint(c: Config, events: seq<Event>) {
    forall i :: 0 <= i < |events| && events[i].Attempt? ==>
      var e := events[i];
      && e.model < |c.models| && e.keyIndex < |c.keys| && e.key == c.keys[e.keyIndex]
      && e.response == c.endpoint(RequestFor(c.models[e.model], c.messages), e.key)
  }

  /** Every recorded response is the endpoint's answer to the request sent for it. */
  lemma {:induction false} FallbackResponses(c: Config, mi: nat, ki: nat, exhausted: set<string>, lastError: Option<ModelError>)
    ensures AnsweredByEndpoint(c, Fallback(c, mi, ki, exhausted, lastError).events)
    decreases |c.models| - mi, |c.keys| - ki
  {
    if mi >= |c.models| {
    } else if ki >= |c.keys| {
      FallbackResponses(c, mi + 1, 0, exhausted, lastError);
      FallbackNextModel(c, mi, exhausted, lastError);
      AnsweredConcat(c, PendingWait(c, mi + 1), Fallback(c, mi + 1, 0, exhausted, lastError).events);
    } else if c.keys[ki] in exhausted {
      FallbackResponses(c, mi, ki + 1, exhausted, lastError);
      FallbackSkip(c, mi, ki, exhausted, lastError);
    } else {
      var response := c.endpoint(RequestFor(c.models[mi], c.messages), c.keys[ki]);
      var event := Attempt(mi, ki, c.keys[ki], response);
      assert AnsweredByEndpoint(c, [event]);
      if Judge(response).Failed? {
        var exhausted' := if Judge(response).exhausts then exhausted + {c.keys[ki]} else exhausted;
        var lastError' := Some(Judge(response).error);
        FallbackResponses(c, mi, ki + 1, exhausted', lastError');
        FallbackTryFailed(c, mi, ki, exhausted, lastError, response, exhausted', lastError');
        AnsweredConcat(c, [event], Fallback(c, mi, ki + 1, exhausted', lastError').events);
      } else {
        FallbackTrySummary(c, mi, ki, exhausted, lastError, response);
      }
    }
  }

  lemma AnsweredConcat(c: Config, first: seq<Event>, second: seq<Event>)
    requires AnsweredByEndpoint(c, first) && AnsweredByEndpoint(c, second)
    ensures AnsweredByEndpoint(c, first + second)
  {
    var ev := first + second;
    forall i | 0 <= i < |ev| && ev[i].Attempt?
      ensures ev[i].model < |c.models| && ev[i].keyIndex < |c.keys| && ev[i].key == c.keys[ev[i].keyIndex]
      ensures ev[i].response == c.endpoint(RequestFor(c.models[ev[i].model], c.messages), ev[i].key)
    {
      if i < |first| {
        assert ev[i] == first[i];
      } else {
        assert ev[i] == second[i - |first|];
      }
    }
  }

  lemma {:induction false} FallbackKeys(c: Config, mi: nat, ki: nat, exhausted: set<string>, lastError: Option<ModelError>)
    ensures var ev := Fallback(c, mi, ki, exhausted, lastError).events;
      && NoResendAfterExhaustion(ev)
      && forall i :: 0 <= i < |ev| && ev[i].Attempt? ==> ev[i].key !in exhausted
    decreases |c.models| - mi, |c.keys| - ki
  {
    if mi >= |c.models| {
    } else if ki >= |c.keys| {
      FallbackKeys(c, mi + 1, 0, exhausted, lastError);
      FallbackNextModel(c, mi, exhausted, lastError);
      KeysAfterWait(c, mi, exhausted, Fallback(c, mi + 1, 0, exhausted, lastError).events);
    } else if c.keys[ki] in exhausted {
      FallbackKeys(c, mi, ki + 1, exhausted, lastError);
      FallbackSkip(c, mi, ki, exhausted, lastError);
    } else {
      var response := c.endpoint(RequestFor(c.models[mi], c.messages), c.keys[ki]);
      if Judge(response).Failed? {
        var exhausted' := if Judge(response).exhausts then exhausted + {c.keys[ki]} else exhausted;
        var lastError' := Some(Judge(response).error);
        FallbackKeys(c, mi, ki + 1, exhausted', lastError');
        FallbackTryFailed(c, mi, ki, exhausted, lastError, response, exhausted', lastError');
        KeysAfterAttempt(Attempt(mi, ki, c.keys[ki], response), exhausted, exhausted', Fallback(c, mi, ki + 1, exhausted', lastError').events);
      } else {
        FallbackTrySummary(c, mi, ki, exhausted, lastError, response);
      }
    }
  }

  /** Credentials kept out of `rest` stay out with the owed pause in front. */
  lemma KeysAfterWait(c: Config, mi: nat, exhausted: set<string>, rest: seq<Event>)
    requires NoResendAfterExhaustion(rest)
    requires forall i :: 0 <= i < |rest| && rest[i].Attempt? ==> rest[i].key !in exhausted
    ensures var ev := PendingWait(c, mi + 1) + rest;
      && NoResendAfterExhaustion(ev)
      && forall i :: 0 <= i < |ev| && ev[i].Attempt? ==> ev[i].key !in exhausted
  {
    var pre := PendingWait(c, mi + 1);
    var ev := pre + rest;
    forall i | 0 <= i < |ev| ensures ev[i].Attempt? ==> ev[i].key !in exhausted {
      if i >= |pre| {
        assert ev[i] == rest[i - |pre|];
      }
    }
    forall i, j | 0 <= i < j < |ev| && ev[i].Attempt? && ev[j].Attempt? && Exhausts(ev[i].response)
      ensures ev[j].key != ev[i].key
    {
      assert ev[i] == rest[i - |pre|] && ev[j] == rest[j - |pre|];
    }
  }

  /** A request in front of `rest`, which never uses a credential in `exhausted'`. */
  lemma KeysAfterAttempt(event: Event, exhausted: set<string>, exhausted': set<string>, rest: seq<Event>)
    requires event.Attempt? && event.key !in exhausted
    requires exhausted' == if Exhausts(event.response) then exhausted + {event.key} else exhausted
    requires NoResendAfterExhaustion(rest)
    requires forall i :: 0 <= i < |rest| && rest[i].Attempt? ==> rest[i].key !in exhausted'
    ensures var ev := [event] + rest;
      && NoResendAfterExhaustion(ev)
      && forall i :: 0 <= i < |ev| && ev[i].Attempt? ==> ev[i].key !in exhausted
  {
    var ev := [event] + rest;
    forall i | 0 <= i < |ev| ensures ev[i].Attempt? ==> ev[i].key !in exhausted {
      if i > 0 {
        assert ev[i] == rest[i - 1];
      }
    }
    forall i, j | 0 <= i < j < |ev| && ev[i].Attempt? && ev[j].Attempt? && Exhausts(ev[i].response)
      ensures ev[j].key != ev[i].key
    {
      assert ev[j] == rest[j - 1];
      if i > 0 {
        assert ev[i] == rest[i - 1];
      }
    }
  }

  /** The number of requests among `events`. */
  function AttemptCount(events: seq<Event>): nat {
    if events == [] then 0 else (if events[0].Attempt? then 1 else 0) + AttemptCount(events[1..])
  }

  /** From (mi, ki) on, at most one request per remaining (model, credential) pair is sent. */
  lemma {:induction false} FallbackAttemptBound(c: Config, mi: nat, ki: nat, exhausted: set<string>, lastError: Option<ModelError>)
    requires ki <= |c.keys|
    ensures var n := AttemptCount(Fallback(c, mi, ki, exhausted, lastError).events);
      if mi < |c.models| then n + ki <= (|c.models| - mi) * |c.keys| else n == 0
    decreases |c.models| - mi, |c.keys| - ki
  {
    if mi >= |c.models| {
    } else if ki >= |c.keys| {
      FallbackAttemptBound(c, mi + 1, 0, exhausted, lastError);
      FallbackNextModel(c, mi, exhausted, lastError);
      var rest := Fallback(c, mi + 1, 0, exhausted, lastError).events;
      if mi + 1 < |c.models| {
        assert (PendingWait(c, mi + 1) + rest)[1..] == rest;
      }
      MulStep(|c.models| - mi, |c.keys|);
    } else if c.keys[ki] in exhausted {
      FallbackAttemptBound(c, mi, ki + 1, exhausted, lastError);
      FallbackSkip(c, mi, ki, exhausted, lastError);
    } else {
      var response := c.endpoint(RequestFor(c.models[mi], c.messages), c.keys[ki]);
      MulStep(|c.models| - mi, |c.keys|);
      if Judge(response).Failed? {
        var exhausted' := if Judge(response).exhausts then exhausted + {c.keys[ki]} else exhausted;
        var lastError' := Some(Judge(response).error);
        FallbackAttemptBound(c, mi, ki + 1, exhausted', lastError');
        FallbackTryFailed(c, mi, ki, exhausted, lastError, response, exhausted', lastError');
        var rest := Fallback(c, mi, ki + 1, exhausted', lastError').events;
        assert ([Attempt(mi, ki, c.keys[ki], response)] + rest)[1..] == rest;
      } else {
        FallbackTrySummary(c, mi, ki, exhausted, lastError, response);
        assert [Attempt(mi, ki, c.keys[ki], response)][1..] == [];
      }
    }
  }

  lemma MulStep(a: nat, b: nat)
    requires a >= 1
    ensures a * b == b + (a - 1) * b && (a - 1) * b >= 0
  {
  }

  /** The error a failed call reports: that of the last request made, else the one recorded before, else the fixed one. */
  function LastError(events: seq<Event>, before: Option<ModelError>): ModelError
  {
    if events == [] then before.GetOr(AllModelsFailed)
    else
      var last := events[|events| - 1];
      if last.Attempt? && Judge(last.response).Failed? then Judge(last.response).error
      else LastError(events[..|events| - 1], before)
  }

  /** `events` ends with a request that got a message. */
  predicate EndsWithSummary(events: seq<Event>) {
    events != [] && events[|events| - 1].Attempt? && Judge(events[|events| - 1].response).Summary?
  }

  /** `run` succeeds exactly when its events end with a request that got a message, and then with that message. */
  predicate EndsWithMessage(run: Run) {
    && (run.outcome.Success? <==> EndsWithSummary(run.events))
    && (run.outcome.Success? ==> run.outcome.value == Judge(run.events[|run.events| - 1].response).message)
  }

  /** Events that do not end with a message, in front of a run, keep the run's success as it is. */
  lemma MessageAfter(pre: seq<Event>, run: Run)
    requires EndsWithMessage(run) && !EndsWithSummary(pre)
    ensures EndsWithMessage(After(pre, run))
  {
    var ev := pre + run.events;
    if run.events == [] {
      assert ev == pre;
    } else {
      assert ev[|ev| - 1] == run.events[|run.events| - 1];
    }
  }

  /**
   * The call succeeds exactly when its last event is a request that got a message,
   * and then that message is the result: the first success ends the call.
   */
  lemma {:induction false} FallbackSuccess(c: Config, mi: nat, ki: nat, exhausted: set<string>, lastError: Option<ModelError>)
    ensures var run := Fallback(c, mi, ki, exhausted, lastError);
      var ev := run.events;
      && (run.outcome.Success? <==>
            |ev| > 0 && ev[|ev| - 1].Attempt? && Judge(ev[|ev| - 1].response).Summary?)
      && (run.outcome.Success? ==> run.outcome.value == Judge(ev[|ev| - 1].response).message)
    decreases |c.models| - mi, |c.keys| - ki
  {
    FallbackEndsWithMessage(c, mi, ki, exhausted, lastError);
  }

  lemma {:induction false} FallbackEndsWithMessage(c: Config, mi: nat, ki: nat, exhausted: set<string>, lastError: Option<ModelError>)
    ensures EndsWithMessage(Fallback(c, mi, ki, exhausted, lastError))
    decreases |c.models| - mi, |c.keys| - ki
  {
    if mi >= |c.models| {
    } else if ki >= |c.keys| {
      FallbackEndsWithMessage(c, mi + 1, 0, exhausted, lastError);
      FallbackNextModel(c, mi, exhausted, lastError);
      MessageAfter(PendingWait(c, mi + 1), Fallback(c, mi + 1, 0, exhausted, lastError));
    } else if c.keys[ki] in exhausted {
      FallbackEndsWithMessage(c, mi, ki + 1, exhausted, lastError);
      FallbackSkip(c, mi, ki, exhausted, lastError);
    } else {
      var response := c.endpoint(RequestFor(c.models[mi], c.messages), c.keys[ki]);
      if Judge(response).Summary? {
        FallbackTrySummary(c, mi, ki, exhausted, lastError, response);
      } else {
        var exhausted' := if Judge(response).exhausts then exhausted + {c.keys[ki]} else exhausted;
        var lastError' := Some(Judge(response).error);
        FallbackEndsWithMessage(c, mi, ki + 1, exhausted', lastError');
        FallbackTryFailed(c, mi, ki, exhausted, lastError, response, exhausted', lastError');
        MessageAfter([Attempt(mi, ki, c.keys[ki], response)], Fallback(c, mi, ki + 1, exhausted', lastError'));
      }
    }
  }

  /** Every request before the last event failed. */
  lemma {:induction false} FallbackEarlierFailed(c: Config, mi: nat, ki: nat, exhausted: set<string>, lastError: Option<ModelError>)
    ensures var ev := Fallback(c, mi, ki, exhausted, lastError).events;
      forall i :: 0 <= i < |ev| - 1 && ev[i].Attempt? ==> Judge(ev[i].response).Failed?
    decreases |c.models| - mi, |c.keys| - ki
  {
    if mi >= |c.models| {
    } else if ki >= |c.keys| {
      FallbackEarlierFailed(c, mi + 1, 0, exhausted, lastError);
      FallbackNextModel(c, mi, exhausted, lastError);
      var pre := PendingWait(c, mi + 1);
      var rest := Fallback(c, mi + 1, 0, exhausted, lastError).events;
      var ev := pre + rest;
      forall i | 0 <= i < |ev| - 1 && ev[i].Attempt? ensures Judge(ev[i].response).Failed? {
        assert i >= |pre| && ev[i] == rest[i - |pre|];
      }
    } else if c.keys[ki] in exhausted {
      FallbackEarlierFailed(c, mi, ki + 1, exhausted, lastError);
      FallbackSkip(c, mi, ki, exhausted, lastError);
    } else {
      var response := c.endpoint(RequestFor(c.models[mi], c.messages), c.keys[ki]);
      if Judge(response).Summary? {
        FallbackTrySummary(c, mi, ki, exhausted, lastError, response);
      } else {
        var exhausted' := if Judge(response).exhausts then exhausted + {c.keys[ki]} else exhausted;
        var lastError' := Some(Judge(response).error);
        FallbackEarlierFailed(c, mi, ki + 1, exhausted', lastError');
        FallbackTryFailed(c, mi, ki, exhausted, lastError, response, exhausted', lastError');
        var rest := Fallback(c, mi, ki + 1, exhausted', lastError').events;
        var ev := [Attempt(mi, ki, c.keys[ki], response)] + rest;
        forall i | 0 <= i < |ev| - 1 && ev[i].Attempt? ensures Judge(ev[i].response).Failed? {
          if i > 0 {
            assert ev[i] == rest[i - 1];
          }
        }
      }
    }
  }

  /** On failure the reported error is that of the last failed request, or the fixed one when nothing was sent. */
  lemma {:induction false} FallbackFailure(c: Config, mi: nat, ki: nat, exhausted: set<string>, lastError: Option<ModelError>)
    ensures var run := Fallback(c, mi, ki, exhausted, lastError);
      run.outcome.Failure? ==> run.outcome.error == LastError(run.events, lastError)
    decreases |c.models| - mi, |c.keys| - ki
  {
    if mi >= |c.models| {
    } else if ki >= |c.keys| {
      FallbackFailure(c, mi + 1, 0, exhausted, lastError);
      FallbackNextModel(c, mi, exhausted, lastError);
      LastErrorSkipsWaits(PendingWait(c, mi + 1), Fallback(c, mi + 1, 0, exhausted, lastError).events, lastError);
    } else if c.keys[ki] in exhausted {
      FallbackFailure(c, mi, ki + 1, exhausted, lastError);
      FallbackSkip(c, mi, ki, exhausted, lastError);
    } else {
      var response := c.endpoint(RequestFor(c.models[mi], c.messages), c.keys[ki]);
      if Judge(response).Failed? {
        var exhausted' := if Judge(response).exhausts then exhausted + {c.keys[ki]} else exhausted;
        var lastError' := Some(Judge(response).error);
        FallbackFailure(c, mi, ki + 1, exhausted', lastError');
        FallbackTryFailed(c, mi, ki, exhausted, lastError, response, exhausted', lastError');
        LastErrorAfterFailure(Attempt(mi, ki, c.keys[ki], response), Fallback(c, mi, ki + 1, exhausted', lastError').events, lastError);
      } else {
        FallbackTrySummary(c, mi, ki, exhausted, lastError, response);
      }
    }
  }

  /** Pauses in front of `events` do not change the error reported. */
  lemma {:induction false} LastErrorSkipsWaits(waits: seq<Event>, events: seq<Event>, before: Option<ModelError>)
    requires forall i :: 0 <= i < |waits| ==> waits[i].Wait?
    ensures LastError(waits + events, before) == LastError(events, before)
    decreases |events| + |waits|
  {
    if events == [] {
      if waits != [] {
        assert (waits + events)[..|waits + events| - 1] == waits[..|waits| - 1] + events;
        LastErrorSkipsWaits(waits[..|waits| - 1], events, before);
      }
    } else {
      assert (waits + events)[..|waits + events| - 1] == waits + events[..|events| - 1];
      LastErrorSkipsWaits(waits, events[..|events| - 1], before);
    }
  }

  /** A failed request in front of `events` replaces whatever error was recorded before it. */
  lemma {:induction false} LastErrorAfterFailure(event: Event, events: seq<Event>, before: Option<ModelError>)
    requires event.Attempt? && Judge(event.response).Failed?
    ensures LastError([event] + events, before) == LastError(events, Some(Judge(event.response).error))
    decreases |events|
  {
    if events != [] {
      assert ([event] + events)[..|events|] == [event] + events[..|events| - 1];
      LastErrorAfterFailure(event, events[..|events| - 1], before);
    } else {
      assert ([event] + events)[..0] == [];
    }
  }

  /** Pair (m, k) was requested. */
  predicate Attempted(events: seq<Event>, m: nat, k: nat) {
    exists i :: 0 <= i < |events| && events[i].Attempt? && events[i].model == m && events[i].keyIndex == k
  }

  /** Some request with credential `key` exhausted it. */
  predicate ExhaustedBy(events: seq<Event>, key: string) {
    exists i :: 0 <= i < |events| && events[i].Attempt? && events[i].key == key && Exhausts(events[i].response)
  }

  lemma EventsShift(pre: seq<Event>, events: seq<Event>)
    ensures forall m, k :: Attempted(events, m, k) ==> Attempted(pre + events, m, k)
    ensures forall key :: ExhaustedBy(events, key) ==> ExhaustedBy(pre + events, key)
    ensures forall e :: e in events ==> e in pre + events
  {
    forall m, k | Attempted(events, m, k) ensures Attempted(pre + events, m, k) {
      var i :| 0 <= i < |events| && events[i].Attempt? && events[i].model == m && events[i].keyIndex == k;
      assert (pre + events)[|pre| + i] == events[i];
    }
    forall key | ExhaustedBy(events, key) ensures ExhaustedBy(pre + events, key) {
      var i :| 0 <= i < |events| && events[i].Attempt? && events[i].key == key && Exhausts(events[i].response);
      assert (pre + events)[|pre| + i] == events[i];
    }
  }

  /**
   * A failed call has tried everything: every (model, credential) pair of the
   * schedule from (mi, ki) on was requested, unless its credential was exhausted
   * (before the start or by a request of this call), and the pause before every
   * later model took place.
   */
  lemma {:induction false} FallbackExhaustive(c: Config, mi: nat, ki: nat, exhausted: set<string>, lastError: Option<ModelError>)
    ensures var run := Fallback(c, mi, ki, exhausted, lastError);
      run.outcome.Failure? ==>
        && (forall m: nat, k: nat :: mi <= m < |c.models| && k < |c.keys| && (mi < m || ki <= k) ==>
              Attempted(run.events, m, k) || c.keys[k] in exhausted || ExhaustedBy(run.events, c.keys[k]))
        && (forall m :: mi < m < |c.models| ==> Wait(m) in run.events)
    decreases |c.models| - mi, |c.keys| - ki
  {
    if mi >= |c.models| {
    } else if ki >= |c.keys| {
      FallbackExhaustive(c, mi + 1, 0, exhausted, lastError);
      FallbackNextModel(c, mi, exhausted, lastError);
      var pre := PendingWait(c, mi + 1);
      var rest := Fallback(c, mi + 1, 0, exhausted, lastError);
      EventsShift(pre, rest.events);
      if mi + 1 < |c.models| {
        assert (pre + rest.events)[0] == Wait(mi + 1);
      }
    } else if c.keys[ki] in exhausted {
      FallbackExhaustive(c, mi, ki + 1, exhausted, lastError);
      FallbackSkip(c, mi, ki, exhausted, lastError);
    } else {
      var response := c.endpoint(RequestFor(c.models[mi], c.messages), c.keys[ki]);
      if Judge(response).Failed? {
        var exhausted' := if Judge(response).exhausts then exhausted + {c.keys[ki]} else exhausted;
        var lastError' := Some(Judge(response).error);
        FallbackExhaustive(c, mi, ki + 1, exhausted', lastError');
        FallbackTryFailed(c, mi, ki, exhausted, lastError, response, exhausted', lastError');
        var event := Attempt(mi, ki, c.keys[ki], response);
        var rest := Fallback(c, mi, ki + 1, exhausted', lastError');
        EventsShift([event], rest.events);
        var ev := [event] + rest.events;
        assert ev[0] == event;
        assert Attempted(ev, mi, ki);
        assert Judge(response).exhausts ==> ExhaustedBy(ev, c.keys[ki]);
      } else {
        FallbackTrySummary(c, mi, ki, exhausted, lastError, response);
      }
    }
  }

  /** Pair (m, k) lies in the schedule from (mi, ki) on. */
  predicate InScope(mi: nat, ki: nat, m: nat, k: nat) {
    mi < m || (mi == m && ki <= k)
  }

  /** Pair (m, k) comes before event `e` in the schedule: before its request, or before the pause in front of its model. */
  predicate BeforeEvent(m: nat, k: nat, e: Event) {
    m < e.model || (m == e.model && k < Slot(e))
  }

  /** Pair (m, k) was requested among `events`, or its credential was exhausted before the start or by one of them. */
  predicate Covered(keys: seq<string>, events: seq<Event>, exhausted: set<string>, m: nat, k: nat)
    requires k < |keys|
  {
    Attempted(events, m, k) || keys[k] in exhausted || ExhaustedBy(events, keys[k])
  }

  /**
   * Event `e`, coming after `events`, passed nothing over: every pair of the schedule
   * from (mi, ki) on that comes before `e` was requested or had its credential
   * exhausted among `events`, and the pause before every model up to `e`'s took place.
   */
  ghost predicate ReachedInOrder(keys: seq<string>, events: seq<Event>, mi: nat, ki: nat, exhausted: set<string>, e: Event) {
    && (forall m: nat, k: nat :: k < |keys| && InScope(mi, ki, m, k) && BeforeEvent(m, k, e) ==> Covered(keys, events, exhausted, m, k))
    && (forall m: nat :: mi < m && (m < e.model || (m == e.model && e.Attempt?)) ==> Wait(m) in events)
  }

  /** Every event of the call was reached in schedule order. */
  ghost predicate NoSkips(keys: seq<string>, events: seq<Event>, mi: nat, ki: nat, exhausted: set<string>) {
    forall j :: 0 <= j < |events| ==> ReachedInOrder(keys, events[..j], mi, ki, exhausted, events[j])
  }

  /**
   * The loop skips nothing: whatever event it produces, every (model, credential)
   * pair scheduled before it was requested first unless its credential was
   * exhausted, and every pause owed before it took place. In particular the request
   * that brings the first message comes after everything scheduled before it.
   */
  lemma {:induction false} FallbackNoSkip(c: Config, mi: nat, ki: nat, exhausted: set<string>, lastError: Option<ModelError>)
    ensures NoSkips(c.keys, Fallback(c, mi, ki, exhausted, lastError).events, mi, ki, exhausted)
    decreases |c.models| - mi, |c.keys| - ki
  {
    if mi >= |c.models| {
    } else if ki >= |c.keys| {
      FallbackNoSkip(c, mi + 1, 0, exhausted, lastError);
      FallbackNextModel(c, mi, exhausted, lastError);
      var rest := Fallback(c, mi + 1, 0, exhausted, lastError);
      if mi + 1 < |c.models| {
        NoSkipsAfterWait(c.keys, mi, ki, exhausted, rest.events);
      } else {
        assert rest.events == [];
      }
    } else if c.keys[ki] in exhausted {
      FallbackNoSkip(c, mi, ki + 1, exhausted, lastError);
      FallbackSkip(c, mi, ki, exhausted, lastError);
      NoSkipsSkip(c.keys, Fallback(c, mi, ki, exhausted, lastError).events, mi, ki, exhausted);
    } else {
      var response := c.endpoint(RequestFor(c.models[mi], c.messages), c.keys[ki]);
      var event := Attempt(mi, ki, c.keys[ki], response);
      if Judge(response).Failed? {
        var exhausted' := if Judge(response).exhausts then exhausted + {c.keys[ki]} else exhausted;
        var lastError' := Some(Judge(response).error);
        FallbackNoSkip(c, mi, ki + 1, exhausted', lastError');
        FallbackTryFailed(c, mi, ki, exhausted, lastError, response, exhausted', lastError');
        NoSkipsAfterAttempt(c.keys, mi, ki, exhausted, exhausted', event, Fallback(c, mi, ki + 1, exhausted', lastError').events);
      } else {
        FallbackTrySummary(c, mi, ki, exhausted, lastError, response);
        NoSkipsAfterAttempt(c.keys, mi, ki, exhausted, exhausted, event, []);
      }
    }
  }

  /**
   * A run that requests the second credential of the first model without having
   * requested or exhausted the first one is not in schedule order.
   */
  lemma NoSkipsRejectsPassedOverCredential(k0: string, k1: string, response: Response)
    ensures !NoSkips([k0, k1], [Attempt(0, 1, k1, response)], 0, 0, {})
  {
    var ev := [Attempt(0, 1, k1, response)];
    assert ev[..0] == [];
    assert !Covered([k0, k1], ev[..0], {}, 0, 0);
  }

  /** The last event, in particular, passed nothing over. */
  lemma NoSkipsLast(keys: seq<string>, events: seq<Event>, mi: nat, ki: nat, exhausted: set<string>)
    requires events != [] && NoSkips(keys, events, mi, ki, exhausted)
    ensures ReachedInOrder(keys, events[..|events| - 1], mi, ki, exhausted, events[|events| - 1])
  {
  }

  /** A skipped credential was exhausted before the start, so it is covered. */
  lemma NoSkipsSkip(keys: seq<string>, events: seq<Event>, mi: nat, ki: nat, exhausted: set<string>)
    requires ki < |keys| && keys[ki] in exhausted
    requires NoSkips(keys, events, mi, ki + 1, exhausted)
    ensures NoSkips(keys, events, mi, ki, exhausted)
  {
    forall j | 0 <= j < |events| ensures ReachedInOrder(keys, events[..j], mi, ki, exhausted, events[j]) {
      forall m: nat, k: nat | k < |keys| && InScope(mi, ki, m, k) && BeforeEvent(m, k, events[j])
        ensures Covered(keys, events[..j], exhausted, m, k)
      {
        if m != mi || k != ki {
          assert InScope(mi, ki + 1, m, k);
        }
      }
    }
  }

  /** The pause before model `mi + 1` in front of a run from that model on. */
  lemma NoSkipsAfterWait(keys: seq<string>, mi: nat, ki: nat, exhausted: set<string>, rest: seq<Event>)
    requires ki >= |keys|
    requires NoSkips(keys, rest, mi + 1, 0, exhausted)
    ensures NoSkips(keys, [Wait(mi + 1)] + rest, mi, ki, exhausted)
  {
    var ev := [Wait(mi + 1)] + rest;
    forall j | 0 <= j < |ev| ensures ReachedInOrder(keys, ev[..j], mi, ki, exhausted, ev[j]) {
      if j > 0 {
        assert ev[j] == rest[j - 1];
        assert ev[..j] == [Wait(mi + 1)] + rest[..j - 1];
        ReachedAfterWait(keys, mi, ki, exhausted, rest[..j - 1], rest[j - 1]);
      }
    }
  }

  lemma ReachedAfterWait(keys: seq<string>, mi: nat, ki: nat, exhausted: set<string>, events: seq<Event>, e: Event)
    requires ki >= |keys|
    requires ReachedInOrder(keys, events, mi + 1, 0, exhausted, e)
    ensures ReachedInOrder(keys, [Wait(mi + 1)] + events, mi, ki, exhausted, e)
  {
    var ev := [Wait(mi + 1)] + events;
    EventsShift([Wait(mi + 1)], events);
    assert ev[0] == Wait(mi + 1);
    forall m: nat, k: nat | k < |keys| && InScope(mi, ki, m, k) && BeforeEvent(m, k, e)
      ensures Covered(keys, ev, exhausted, m, k)
    {
      assert InScope(mi + 1, 0, m, k);
    }
  }

  /** A request for (mi, ki) in front of a run from (mi, ki + 1) on. */
  lemma NoSkipsAfterAttempt(keys: seq<string>, mi: nat, ki: nat, exhausted: set<string>, exhausted': set<string>, event: Event, rest: seq<Event>)
    requires ki < |keys| && event.Attempt? && event == Attempt(mi, ki, keys[ki], event.response)
    requires exhausted' == if Exhausts(event.response) then exhausted + {keys[ki]} else exhausted
    requires NoSkips(keys, rest, mi, ki + 1, exhausted')
    ensures NoSkips(keys, [event] + rest, mi, ki, exhausted)
  {
    var ev := [event] + rest;
    forall j | 0 <= j < |ev| ensures ReachedInOrder(keys, ev[..j], mi, ki, exhausted, ev[j]) {
      if j > 0 {
        assert ev[j] == rest[j - 1];
        assert ev[..j] == [event] + rest[..j - 1];
        ReachedAfterAttempt(keys, mi, ki, exhausted, exhausted', event, rest[..j - 1], rest[j - 1]);
      }
    }
  }

  lemma ReachedAfterAttempt(keys: seq<string>, mi: nat, ki: nat, exhausted: set<string>, exhausted': set<string>,
                            event: Event, events: seq<Event>, e: Event)
    requires ki < |keys| && event.Attempt? && event == Attempt(mi, ki, keys[ki], event.response)
    requires exhausted' == if Exhausts(event.response) then exhausted + {keys[ki]} else exhausted
    requires ReachedInOrder(keys, events, mi, ki + 1, exhausted', e)
    ensures ReachedInOrder(keys, [event] + events, mi, ki, exhausted, e)
  {
    var ev := [event] + events;
    EventsShift([event], events);
    assert ev[0] == event;
    assert Attempted(ev, mi, ki);
    assert Exhausts(event.response) ==> ExhaustedBy(ev, keys[ki]);
    forall m: nat, k: nat | k < |keys| && InScope(mi, ki, m, k) && BeforeEvent(m, k, e)
      ensures Covered(keys, ev, exhausted, m, k)
    {
      if m != mi || k != ki {
        assert InScope(mi, ki + 1, m, k);
        assert Covered(keys, events, exhausted', m, k);
      }
    }
  }

  // ---------------------------------------------------------------------------
  // The loop as the source runs it

  /** `run` preceded by the events already observed. */
  function After(observed: seq<Event>, run: Run): Run {
    Run(run.outcome, observed + run.events)
  }

  /** One unfolding of `Fallback` at a credential that is skipped. */
  lemma FallbackSkip(c: Config, mi: nat, ki: nat, exhausted: set<string>, lastError: Option<ModelError>)
    requires mi < |c.models| && ki < |c.keys| && c.keys[ki] in exhausted
    ensures Fallback(c, mi, ki, exhausted, lastError) == Fallback(c, mi, ki + 1, exhausted, lastError)
  {
  }

  /** One unfolding of `Fallback` at a credential whose request brings a message. */
  lemma FallbackTrySummary(c: Config, mi: nat, ki: nat, exhausted: set<string>, lastError: Option<ModelError>, response: Response)
    requires mi < |c.models| && ki < |c.keys| && c.keys[ki] !in exhausted
    requires response == c.endpoint(RequestFor(c.models[mi], c.messages), c.keys[ki])
    requires Judge(response).Summary?
    ensures Fallback(c, mi, ki, exhausted, lastError) == Run(Success(Judge(response).message), [Attempt(mi, ki, c.keys[ki], response)])
  {
  }

  /** One unfolding of `Fallback` at a credential whose request fails. */
  lemma FallbackTryFailed(c: Config, mi: nat, ki: nat, exhausted: set<string>, lastError: Option<ModelError>, response: Response,
                          exhausted': set<string>, lastError': Option<ModelError>)
    requires mi < |c.models| && ki < |c.keys| && c.keys[ki] !in exhausted
    requires response == c.endpoint(RequestFor(c.models[mi], c.messages), c.keys[ki])
    requires Judge(response).Failed?
    requires lastError' == Some(Judge(response).error)
    requires exhausted' == if Judge(response).exhausts then exhausted + {c.keys[ki]} else exhausted
    ensures Fallback(c, mi, ki, exhausted, lastError)
      == After([Attempt(mi, ki, c.keys[ki], response)], Fallback(c, mi, ki + 1, exhausted', lastError'))
  {
  }

  lemma AfterAfter(first: seq<Event>, second: seq<Event>, run: Run)
    ensures After(first, After(second, run)) == After(first + second, run)
  {
    assert first + (second + run.events) == (first + second) + run.events;
  }

  /** One unfolding of `Fallback` at the end of a model's credentials. */
  lemma FallbackNextModel(c: Config, mi: nat, exhausted: set<string>, lastError: Option<ModelError>)
    requires mi < |c.models|
    ensures Fallback(c, mi, |c.keys|, exhausted, lastError)
      == After(PendingWait(c, mi + 1), Fallback(c, mi + 1, 0, exhausted, lastError))
  {
    var rest := Fallback(c, mi + 1, 0, exhausted, lastError);
    assert [] + rest.events == rest.events;
  }

  /** The pause still owed before model `mi` when its credential loop has not started yet. */
  function PendingWait(c: Config, mi: nat): seq<Event> {
    if 0 < mi < |c.models| then [Wait(mi)] else []
  }

  /**
   * The body of the credential loop for one request: the `try` block and its `catch`.
   * Its verdict is `Judge(response)`: a message ends the call; otherwise the error
   * becomes `lastError` and the credential joins `exhaustedKeys` when the verdict
   * says so.
   */
  method HandleResponse(response: Response, apiKey: string, exhaustedKeys: set<string>, lastError: Option<ModelError>)
    returns (summary: Option<string>, exhaustedKeys': set<string>, lastError': Option<ModelError>)
    ensures Judge(response).Summary? ==> summary == Some(Judge(response).message)
    ensures Judge(response).Failed? ==>
      && summary == None
      && lastError' == Some(Judge(response).error)
      && exhaustedKeys' == if Judge(response).exhausts then exhaustedKeys + {apiKey} else exhaustedKeys
  {
    summary, exhaustedKeys', lastError' := None, exhaustedKeys, lastError;
    var thrown: Option<ModelError> := None;
    match response {
      case Thrown(message) =>
        thrown := Some(Transport(message));
      case Reply(status, text, messageContent, choiceText) =>
        if status == 429 || status == 404 {
          if status == 429 {
            exhaustedKeys' := exhaustedKeys' + {apiKey};
          }
          lastError' := Some(if status == 429 then RateLimited(text) else NotFound(text));
          return;
        }
        if !IsOk(status) {
          if status == 401 {
            exhaustedKeys' := exhaustedKeys' + {apiKey};
            lastError' := Some(Unauthorized(text));
            return;
          }
          thrown := Some(ApiError(status, text));
        } else {
          var message := if messageContent != [] then messageContent else choiceText;
          if message == [] {
            thrown := Some(NoMessage);
          } else {
            summary := Some(message);
            return;
          }
        }
    }
    // The catch block.
    JudgeCases(response);
    var err := thrown.value;
    lastError' := Some(err);
    if StartsWith(ErrorMessage(err), "429:") {
      exhaustedKeys' := exhaustedKeys' + {apiKey};
    }
  }

  /**
   * `callOpenRouterSummarize`: builds the two messages from the page, then runs the
   * model/credential loop over `FreeModels`. Requests go out in model-major,
   * credential-minor order, none with an exhausted credential, at most one per
   * (model, credential) pair, each response being the endpoint's answer to the
   * request sent; nothing scheduled before a request is passed over
   * unless its credential is exhausted; the first message ends the call; a failure
   * has tried every pair not exhausted and reports the last error recorded.
   */
  method CallSummarize(title: string, excerpt: string, content: string, url: string,
                       apiKeys: seq<string>, endpoint: (ChatRequest, string) -> Response)
    returns (result: Result<string, ModelError>, events: seq<Event>)
    ensures Run(result, events) == FallbackFromStart(Config(FreeModels, apiKeys, Messages(title, excerpt, content, url), endpoint))
    ensures InScheduleOrder(events) && NoResendAfterExhaustion(events)
    ensures AttemptCount(events) <= |FreeModels| * |apiKeys|
    ensures result.Success? <==> events != [] && events[|events| - 1].Attempt? && Judge(events[|events| - 1].response).Summary?
    ensures result.Failure? ==> result.error == LastError(events, None)
    ensures NoSkips(apiKeys, events, 0, 0, {})
    ensures AnsweredByEndpoint(Config(FreeModels, apiKeys, Messages(title, excerpt, content, url), endpoint), events)
    ensures result.Success? ==> ReachedInOrder(apiKeys, events[..|events| - 1], 0, 0, {}, events[|events| - 1])
    ensures result.Failure? ==>
      && (forall m: nat, k: nat :: m < |FreeModels| && k < |apiKeys| ==> Attempted(events, m, k) || ExhaustedBy(events, apiKeys[k]))
      && (forall m :: 0 < m < |FreeModels| ==> Wait(m) in events)
  {
    var messages := Messages(title, excerpt, content, url);
    var c := Config(FreeModels, apiKeys, messages, endpoint);
    result, events := TryModels(c);
    FromStartProperties(c);
  }

  /**
   * The nested loops of `callOpenRouterSummarize` over the models and the credential
   * pool, with a request-scoped `exhaustedKeys` set and `lastError`. Returns the
   * summary or the error it throws, with the pauses and requests it made: exactly
   * those of `FallbackFromStart`.
   */
  method TryModels(c: Config) returns (result: Result<string, ModelError>, events: seq<Event>)
    ensures Run(result, events) == FallbackFromStart(c)
  {
    ghost var whole := FallbackFromStart(c);
    var lastError: Option<ModelError> := None;
    var exhaustedKeys: set<string> := {};
    events := [];
    assert whole == After(events, Fallback(c, 0, 0, exhaustedKeys, lastError));
    for modelIndex := 0 to |c.models|
      invariant whole == After(events + PendingWait(c, modelIndex), Fallback(c, modelIndex, 0, exhaustedKeys, lastError))
    {
      ghost var before := events;
      if modelIndex > 0 {
        events := events + [Wait(modelIndex)];
      }
      assert events == before + PendingWait(c, modelIndex);
      var summary, tried;
      ghost var ex0, le0 := exhaustedKeys, lastError;
      summary, tried, exhaustedKeys, lastError := TryKeys(c, modelIndex, exhaustedKeys, lastError);
      if summary.Some? {
        assert whole == Run(Success(summary.value), events + tried);
        events := events + tried;
        result := Success(summary.value);
        return;
      }
      ModelDone(c, whole, events, tried, modelIndex, ex0, le0, exhaustedKeys, lastError);
      events := events + tried;
    }
    result := Failure(lastError.GetOr(AllModelsFailed));
    assert events + PendingWait(c, |c.models|) + [] == events;
    assert whole == Run(result, events);
  }

  /** The loop invariant of `TryModels` carried past a model whose credentials brought no message. */
  lemma ModelDone(c: Config, whole: Run, events: seq<Event>, tried: seq<Event>, mi: nat,
                  ex0: set<string>, le0: Option<ModelError>, ex: set<string>, le: Option<ModelError>)
    requires mi < |c.models|
    requires whole == After(events, Fallback(c, mi, 0, ex0, le0))
    requires Fallback(c, mi, 0, ex0, le0) == After(tried, Fallback(c, mi, |c.keys|, ex, le))
    ensures whole == After(events + tried + PendingWait(c, mi + 1), Fallback(c, mi + 1, 0, ex, le))
  {
    FallbackNextModel(c, mi, ex, le);
    AfterAfter(tried, PendingWait(c, mi + 1), Fallback(c, mi + 1, 0, ex, le));
    AfterAfter(events, tried + PendingWait(c, mi + 1), Fallback(c, mi + 1, 0, ex, le));
    assert events + (tried + PendingWait(c, mi + 1)) == events + tried + PendingWait(c, mi + 1);
  }

  /**
   * The credential loop for model `modelIndex`: skips exhausted credentials, sends a
   * request with each other one, and stops at the first message. What it does is
   * `Fallback` from the model's first credential up to its last.
   */
  method TryKeys(c: Config, modelIndex: nat, exhaustedKeys: set<string>, lastError: Option<ModelError>)
    returns (summary: Option<string>, tried: seq<Event>, exhaustedKeys': set<string>, lastError': Option<ModelError>)
    requires modelIndex < |c.models|
    ensures summary.Some? ==> Fallback(c, modelIndex, 0, exhaustedKeys, lastError) == Run(Success(summary.value), tried)
    ensures summary.None? ==>
      Fallback(c, modelIndex, 0, exhaustedKeys, lastError) == After(tried, Fallback(c, modelIndex, |c.keys|, exhaustedKeys', lastError'))
  {
    ghost var whole := Fallback(c, modelIndex, 0, exhaustedKeys, lastError);
    var body := RequestFor(c.models[modelIndex], c.messages);
    summary, tried, exhaustedKeys', lastError' := None, [], exhaustedKeys, lastError;
    assert [] + whole.events == whole.events;
    for k := 0 to |c.keys|
      invariant whole == After(tried, Fallback(c, modelIndex, k, exhaustedKeys', lastError'))
      invariant summary.None?
    {
      var apiKey := c.keys[k];
      if apiKey in exhaustedKeys' {
        FallbackSkip(c, modelIndex, k, exhaustedKeys', lastError');
        continue;
      }
      var response := c.endpoint(body, apiKey);
      var event := Attempt(modelIndex, k, apiKey, response);
      ghost var before, ex0, le0 := tried, exhaustedKeys', lastError';
      tried := tried + [event];
      summary, exhaustedKeys', lastError' := HandleResponse(response, apiKey, exhaustedKeys', lastError');
      if summary.Some? {
        FallbackTrySummary(c, modelIndex, k, ex0, le0, response);
        return;
      }
      FallbackTryFailed(c, modelIndex, k, ex0, le0, response, exhaustedKeys', lastError');
      AfterAfter(before, [event], Fallback(c, modelIndex, k + 1, exhaustedKeys', lastError'));
    }
  }

  /** The loop properties for a whole call, from the first model with nothing exhausted. */
  lemma FromStartProperties(c: Config)
    ensures var run := FallbackFromStart(c);
      var ev := run.events;
      && InScheduleOrder(ev) && WithinSchedule(c, ev, 0, 0)
      && NoResendAfterExhaustion(ev)
      && AttemptCount(ev) <= |c.models| * |c.keys|
      && (run.outcome.Success? <==> ev != [] && ev[|ev| - 1].Attempt? && Judge(ev[|ev| - 1].response).Summary?)
      && (run.outcome.Success? ==> run.outcome.value == Judge(ev[|ev| - 1].response).message)
      && (forall i :: 0 <= i < |ev| - 1 && ev[i].Attempt? ==> Judge(ev[i].response).Failed?)
      && (run.outcome.Failure? ==> run.outcome.error == LastError(ev, None))
      && (run.outcome.Failure? ==>
            forall m: nat, k: nat :: m < |c.models| && k < |c.keys| ==> Attempted(ev, m, k) || ExhaustedBy(ev, c.keys[k]))
      && (run.outcome.Failure? ==> forall m :: 0 < m < |c.models| ==> Wait(m) in ev)
      && NoSkips(c.keys, ev, 0, 0, {})
      && (run.outcome.Success? ==> ReachedInOrder(c.keys, ev[..|ev| - 1], 0, 0, {}, ev[|ev| - 1]))
      && AnsweredByEndpoint(c, ev)
  {
    FromStartOrder(c);
    FromStartOutcome(c);
  }

  /** The order in which a whole call makes its requests and pauses, and what each request got back. */
  lemma FromStartOrder(c: Config)
    ensures var ev := FallbackFromStart(c).events;
      && InScheduleOrder(ev) && WithinSchedule(c, ev, 0, 0)
      && NoResendAfterExhaustion(ev)
      && AttemptCount(ev) <= |c.models| * |c.keys|
      && NoSkips(c.keys, ev, 0, 0, {})
      && (ev != [] ==> ReachedInOrder(c.keys, ev[..|ev| - 1], 0, 0, {}, ev[|ev| - 1]))
      && AnsweredByEndpoint(c, ev)
  {
    FallbackResponses(c, 0, 0, {}, None);
    FallbackSchedule(c, 0, 0, {}, None);
    FallbackKeys(c, 0, 0, {}, None);
    FallbackAttemptBound(c, 0, 0, {}, None);
    FallbackNoSkip(c, 0, 0, {}, None);
    var ev := FallbackFromStart(c).events;
    if ev != [] {
      NoSkipsLast(c.keys, ev, 0, 0, {});
    }
  }

  /** How a whole call ends: its result and what it has tried when it fails. */
  lemma FromStartOutcome(c: Config)
    ensures var run := FallbackFromStart(c);
      var ev := run.events;
      && (run.outcome.Success? <==> ev != [] && ev[|ev| - 1].Attempt? && Judge(ev[|ev| - 1].response).Summary?)
      && (run.outcome.Success? ==> run.outcome.value == Judge(ev[|ev| - 1].response).message)
      && (forall i :: 0 <= i < |ev| - 1 && ev[i].Attempt? ==> Judge(ev[i].response).Failed?)
      && (run.outcome.Failure? ==> run.outcome.error == LastError(ev, None))
      && (run.outcome.Failure? ==>
            forall m: nat, k: nat :: m < |c.models| && k < |c.keys| ==> Attempted(ev, m, k) || ExhaustedBy(ev, c.keys[k]))
      && (run.outcome.Failure? ==> forall m :: 0 < m < |c.models| ==> Wait(m) in ev)
  {
    FallbackSuccess(c, 0, 0, {}, None);
    FallbackEarlierFailed(c, 0, 0, {}, None);
    FallbackFailure(c, 0, 0, {}, None);
    FallbackExhaustive(c, 0, 0, {}, None);
  }
}

=== FILE: handler.dfy ===
/**
 * The HTTP handler of api/summarize.js: method and body checks, the summary cache,
 * the credential pool, fetching and extracting the page, the model call and the
 * replies it sends. Fetching a page and calling the chat endpoint are parameters:
 * `fetch` gives what fetching a URL yields, `endpoint` what one request yields.
 */
module SummarizeHandler {
  import opened Wrappers
  import opened Cache
  import opened ApiKeys
  import opened ModelFallback

  /** The `url` field of the JSON body: absent (or no body), not a string, or a string. */
  datatype UrlField = Missing | NonString | Str(s: string)

  datatype Request = Request(httpMethod: string, url: UrlField)

  /** What Readability extracts: the title, excerpt and text (each `''` when absent). */
  datatype Article = Article(title: string, excerpt: string, content: string)

  /**
   * Fetching a URL either fails (a thrown error or a non-OK status) or yields the
   * HTML, what Readability makes of it, the page's `meta[name="description"]`
   * content and its document title.
   */
  datatype Page =
    | Blocked
    | Fetched(html: string, article: Option<Article>, metaDescription: string, docTitle: string)

  /** The value the cache holds for a URL. */
  datatype SummaryRecord = SummaryRecord(title: string, excerpt: string, summary: string)

  /**
   * The JSON sent back. A summary body carries `cached: true` when it came from the
   * cache; `cached == false` stands for the field being absent.
   */
  datatype Body =
    | SummaryBody(title: string, excerpt: string, summary: string, cached: bool)
    | ErrorBody(error: string, code: Option<string>)

  datatype HttpReply = HttpReply(status: nat, body: Body)

  const MethodNotAllowedText: string := "Method not allowed, use POST"
  const InvalidUrlText: string := "Missing or invalid url"
  const NoKeysText: string := "OpenRouter API key(s) not configured"
  const FetchBlockedText: string :=
    "Content fetch blocked or unavailable for this URL. Try again later or use a different source."
  const NoContentText: string :=
    "No readable content extracted from this URL. The site may prevent scraping."
  const SummarizationFailedPrefix: string := "Summarization failed: "

  /** The request gets past the method and body checks. */
  predicate Admitted(req: Request) {
    req.httpMethod == "POST" && req.url.Str? && req.url.s != ""
  }

  function CacheKey(url: string): string { "summary:" + url }

  /**
   * The fields the handler goes on with: Readability's article, but when it has no
   * text and the HTML is non-empty, all three fields are replaced by the meta
   * description (as excerpt and text) and the document title.
   */
  function Extract(page: Page): Article
    requires page.Fetched?
  {
    var a := page.article.GetOr(Article("", "", ""));
    if a.content == "" && page.html != "" then
      Article(page.docTitle, page.metaDescription, page.metaDescription)
    else a
  }

  /** The model call the handler makes for `url` with the extracted fields. */
  function SummaryRun(url: string, a: Article, keys: seq<string>, endpoint: (ChatRequest, string) -> Response): Run {
    FallbackFromStart(Config(FreeModels, keys, Messages(a.title, a.excerpt, a.content, url), endpoint))
  }

  /**
   * The reply to `req`, given the cache contents at instant `now`, the credential
   * pool, the page fetcher and the chat endpoint. The checks run in this order:
   * method (405), url (400), cache hit (200, `cached`), no credential (500), fetch
   * (502), nothing readable (422), model failure (500), summary (200).
   */
  function Respond(req: Request, entries: map<string, Entry<SummaryRecord>>, now: int, keys: seq<string>,
                   fetch: string -> Page, endpoint: (ChatRequest, string) -> Response): (r: HttpReply)
    ensures r.status in {200, 400, 405, 422, 500, 502}
    ensures r.status == 200 <==> r.body.SummaryBody?
    ensures r.status == 405 <==> req.httpMethod != "POST"
    ensures r.status == 400 <==> req.httpMethod == "POST" && !Admitted(req)
    ensures r.status == 405 ==> r.body == ErrorBody(MethodNotAllowedText, None)
    ensures r.status == 400 ==> r.body == ErrorBody(InvalidUrlText, None)
    ensures r.body.SummaryBody? && r.body.cached <==>
      Admitted(req) && LookupIn(entries, CacheKey(req.url.s), now).Some?
    ensures r.body.SummaryBody? && r.body.cached ==>
      var s := LookupIn(entries, CacheKey(req.url.s), now).value;
      r.body == SummaryBody(s.title, s.excerpt, s.summary, true)
    ensures r.status == 502 ==> r.body == ErrorBody(FetchBlockedText, Some("FETCH_BLOCKED")) && fetch(req.url.s).Blocked?
    ensures r.status == 422 ==> r.body == ErrorBody(NoContentText, Some("NO_CONTENT"))
    ensures r.status !in {400, 405} && !(r.body.SummaryBody? && r.body.cached) ==> Admitted(req) && LookupIn(entries, CacheKey(req.url.s), now).None?
    ensures r.status in {422, 502} || (r.body.SummaryBody? && !r.body.cached) ==> |keys| > 0
    ensures Admitted(req) && LookupIn(entries, CacheKey(req.url.s), now).None? ==> r == Computed(req.url.s, keys, fetch, endpoint)
  {
    if req.httpMethod != "POST" then HttpReply(405, ErrorBody(MethodNotAllowedText, None))
    else if !Admitted(req) then HttpReply(400, ErrorBody(InvalidUrlText, None))
    else
      var url := req.url.s;
      var hit := LookupIn(entries, CacheKey(url), now);
      if hit.Some? then
        HttpReply(200, SummaryBody(hit.value.title, hit.value.excerpt, hit.value.summary, true))
      else Computed(url, keys, fetch, endpoint)
  }

  /**
   * The reply when the cache has nothing for `url`: no credential (500), fetch
   * (502), nothing readable (422), model failure (500), summary (200).
   */
  function Computed(url: string, keys: seq<string>, fetch: string -> Page,
                    endpoint: (ChatRequest, string) -> Response): (r: HttpReply)
    ensures r.status in {200, 422, 500, 502}
    ensures r.status == 200 <==> r.body.SummaryBody? && !r.body.cached
    ensures r == HttpReply(500, ErrorBody(NoKeysText, None)) <==> |keys| == 0
    ensures r.status == 502 <==> |keys| > 0 && fetch(url).Blocked?
    ensures r.status == 502 ==> r.body == ErrorBody(FetchBlockedText, Some("FETCH_BLOCKED"))
    ensures r.status == 422 <==> |keys| > 0 && fetch(url).Fetched? && !Readable(Extract(fetch(url)))
    ensures r.status == 422 ==> r.body == ErrorBody(NoContentText, Some("NO_CONTENT"))
    ensures r.status == 200 ==> |keys| > 0 && fetch(url).Fetched? && Readable(Extract(fetch(url)))
  {
    if |keys| == 0 then HttpReply(500, ErrorBody(NoKeysText, None))
    else
      var page := fetch(url);
      if page.Blocked? then HttpReply(502, ErrorBody(FetchBlockedText, Some("FETCH_BLOCKED")))
      else
        var a := Extract(page);
        if !Readable(a) then HttpReply(422, ErrorBody(NoContentText, Some("NO_CONTENT")))
        else
          var run := SummaryRun(url, a, keys, endpoint);
          match run.outcome
          case Failure(e) =>
            assert NoKeysText[0] != (SummarizationFailedPrefix + ErrorMessage(e))[0];
            HttpReply(500, ErrorBody(SummarizationFailedPrefix + ErrorMessage(e), None))
          case Success(text) => HttpReply(200, SummaryBody(a.title, a.excerpt, text, false))
  }

  /** Readability (or the meta fallback) left a text or an excerpt to summarise. */
  predicate Readable(a: Article) {
    a.content != "" || a.excerpt != ""
  }

  /**
   * Past the credential, fetch and content checks, the model call decides the
   * reply: its summary is sent fresh with the extracted title and excerpt, and its
   * failure is a 500 carrying the error of the last failed request (or the
   * all-models-failed message when no request recorded one).
   */
  lemma ModelRunDecides(url: string, keys: seq<string>, fetch: string -> Page, endpoint: (ChatRequest, string) -> Response)
    requires |keys| > 0 && fetch(url).Fetched? && Readable(Extract(fetch(url)))
    ensures var a := Extract(fetch(url));
      var run := SummaryRun(url, a, keys, endpoint);
      var r := Computed(url, keys, fetch, endpoint);
      && (run.outcome.Success? ==> r == HttpReply(200, SummaryBody(a.title, a.excerpt, run.outcome.value, false)))
      && (run.outcome.Failure? ==>
            r == HttpReply(500, ErrorBody(SummarizationFailedPrefix + ErrorMessage(LastError(run.events, None)), None)))
  {
    var a := Extract(fetch(url));
    FromStartProperties(Config(FreeModels, keys, Messages(a.title, a.excerpt, a.content, url), endpoint));
  }

  /** A freshly computed summary: the only reply that is written to the cache. */
  predicate Fresh(r: HttpReply) {
    r.body.SummaryBody? && !r.body.cached
  }

  /**
   * The cache after answering `req` with `r`: an admitted request reads its key at
   * `now` (deleting it when stale), and a fresh summary is then stored for 24 hours
   * from `storedAt`, the later instant the clock shows once the page was fetched and
   * the models answered.
   */
  function CacheAfter(entries: map<string, Entry<SummaryRecord>>, req: Request, now: int, storedAt: int, r: HttpReply): map<string, Entry<SummaryRecord>> {
    if !Admitted(req) then entries
    else
      var key := CacheKey(req.url.s);
      var read := if key in entries && now > entries[key].expiresAt then entries - {key} else entries;
      if Fresh(r) then read[key := Entry(SummaryRecord(r.body.title, r.body.excerpt, r.body.summary), storedAt + CacheTtlSeconds * 1000)]
      else read
  }

  /**
   * A fresh summary is only sent when the page was fetched, something readable was
   * extracted from it, and the model call ended with a success reply: its title and
   * excerpt are the extracted ones and its text is the message of the last request,
   * a success status with a non-empty message, every earlier request having failed.
   */
  lemma FreshSummaryComesFromModel(req: Request, entries: map<string, Entry<SummaryRecord>>, now: int, keys: seq<string>,
                                   fetch: string -> Page, endpoint: (ChatRequest, string) -> Response)
    requires Fresh(Respond(req, entries, now, keys, fetch, endpoint))
    ensures Admitted(req) && fetch(req.url.s).Fetched?
    ensures var a := Extract(fetch(req.url.s));
      var r := Respond(req, entries, now, keys, fetch, endpoint);
      var ev := SummaryRun(req.url.s, a, keys, endpoint).events;
      && (a.content != "" || a.excerpt != "")
      && r.body.title == a.title && r.body.excerpt == a.excerpt
      && r.body.summary != ""
      && ev != [] && ev[|ev| - 1].Attempt?
      && Judge(ev[|ev| - 1].response) == ModelFallback.Summary(r.body.summary)
      && ev[|ev| - 1].response.Reply? && IsOk(ev[|ev| - 1].response.status)
      && (forall i :: 0 <= i < |ev| - 1 && ev[i].Attempt? ==> Judge(ev[i].response).Failed?)
  {
    var url := req.url.s;
    var a := Extract(fetch(url));
    var c := Config(FreeModels, keys, Messages(a.title, a.excerpt, a.content, url), endpoint);
    FromStartProperties(c);
    var ev := FallbackFromStart(c).events;
    JudgeCases(ev[|ev| - 1].response);
  }

  /**
   * A 500 reply other than the missing-credential one reports the model call's
   * error: the last failure recorded, or the all-models-failed message when no
   * request recorded one, after every (model, credential) pair was tried or its
   * credential was exhausted.
   */
  lemma SummarizationFailure(req: Request, entries: map<string, Entry<SummaryRecord>>, now: int, keys: seq<string>,
                             fetch: string -> Page, endpoint: (ChatRequest, string) -> Response)
    requires Respond(req, entries, now, keys, fetch, endpoint).status == 500
    requires Respond(req, entries, now, keys, fetch, endpoint).body.error != NoKeysText
    ensures Admitted(req) && |keys| > 0 && fetch(req.url.s).Fetched?
    ensures var a := Extract(fetch(req.url.s));
      var r := Respond(req, entries, now, keys, fetch, endpoint);
      var ev := SummaryRun(req.url.s, a, keys, endpoint).events;
      && r.body == ErrorBody(SummarizationFailedPrefix + ErrorMessage(LastError(ev, None)), None)
      && (forall m: nat, k: nat :: m < |FreeModels| && k < |keys| ==> Attempted(ev, m, k) || ExhaustedBy(ev, keys[k]))
  {
    var url := req.url.s;
    var a := Extract(fetch(url));
    var c := Config(FreeModels, keys, Messages(a.title, a.excerpt, a.content, url), endpoint);
    assert NoKeysText != SummarizationFailedPrefix + ErrorMessage(LastError(FallbackFromStart(c).events, None)) by {
      assert NoKeysText[0] != (SummarizationFailedPrefix + ErrorMessage(LastError(FallbackFromStart(c).events, None)))[0];
    }
    FromStartProperties(c);
  }

  /**
   * A repeat of a request that got a fresh summary, at any instant up to 24 hours
   * after the summary was stored, is answered from the cache with the same title, excerpt and summary and
   * `cached: true`, whatever the credentials, the page and the models would now do.
   */
  lemma RepeatWithinTtlIsCached(req: Request, entries: map<string, Entry<SummaryRecord>>, now: int, keys: seq<string>,
                                fetch: string -> Page, endpoint: (ChatRequest, string) -> Response,
                                storedAt: int, later: int, keys': seq<string>, fetch': string -> Page, endpoint': (ChatRequest, string) -> Response)
    requires Fresh(Respond(req, entries, now, keys, fetch, endpoint))
    requires later <= storedAt + CacheTtlSeconds * 1000
    ensures var r := Respond(req, entries, now, keys, fetch, endpoint);
      Respond(req, CacheAfter(entries, req, now, storedAt, r), later, keys', fetch', endpoint')
        == HttpReply(200, SummaryBody(r.body.title, r.body.excerpt, r.body.summary, true))
  {
    FreshSummaryComesFromModel(req, entries, now, keys, fetch, endpoint);
    var r := Respond(req, entries, now, keys, fetch, endpoint);
    var after := CacheAfter(entries, req, now, storedAt, r);
    var key := CacheKey(req.url.s);
    assert key in after && after[key] == Entry(SummaryRecord(r.body.title, r.body.excerpt, r.body.summary), storedAt + CacheTtlSeconds * 1000);
  }

  /**
   * Once the stored entry has expired, a repeat is not answered from the cache: it
   * is answered as a miss, by the credential check, the fetch and the model call
   * run again.
   */
  lemma RepeatAfterTtlIsRecomputed(req: Request, entries: map<string, Entry<SummaryRecord>>, now: int, keys: seq<string>,
                                   fetch: string -> Page, endpoint: (ChatRequest, string) -> Response,
                                   storedAt: int, later: int, keys': seq<string>, fetch': string -> Page, endpoint': (ChatRequest, string) -> Response)
    requires Fresh(Respond(req, entries, now, keys, fetch, endpoint))
    requires later > storedAt + CacheTtlSeconds * 1000
    ensures var r := Respond(req, entries, now, keys, fetch, endpoint);
      var r' := Respond(req, CacheAfter(entries, req, now, storedAt, r), later, keys', fetch', endpoint');
      r' == Computed(req.url.s, keys', fetch', endpoint')
  {
    FreshSummaryComesFromModel(req, entries, now, keys, fetch, endpoint);
  }

  /**
   * The exported handler: answers `req` and updates `cache` as `Respond` and
   * `CacheAfter` say, by reading the cache, reading the credential pool from `env`,
   * fetching the page, calling the models and storing a fresh summary. `now` is
   * the clock when the cache is read and `storedAt` the clock when a fresh summary
   * is stored, after the fetch and the model call.
   */
  method Handle(cache: TtlCache<SummaryRecord>, now: int, storedAt: int, req: Request, env: Env,
                fetch: string -> Page, endpoint: (ChatRequest, string) -> Response)
    returns (reply: HttpReply)
    modifies cache
    ensures reply == Respond(req, old(cache.entries), now, Pool(env), fetch, endpoint)
    ensures cache.entries == CacheAfter(old(cache.entries), req, now, storedAt, reply)
  {
    if req.httpMethod != "POST" {
      return HttpReply(405, ErrorBody(MethodNotAllowedText, None));
    }
    if !req.url.Str? || req.url.s == "" {
      return HttpReply(400, ErrorBody(InvalidUrlText, None));
    }
    var url := req.url.s;
    var cacheKey := CacheKey(url);
    var cached := cache.Get(cacheKey, now);
    if cached.Some? {
      return HttpReply(200, SummaryBody(cached.value.title, cached.value.excerpt, cached.value.summary, true));
    }
    reply := Compute(url, env, fetch, endpoint);
    if !Fresh(reply) {
      return;
    }
    var result := SummaryRecord(reply.body.title, reply.body.excerpt, reply.body.summary);
    cache.Put(cacheKey, result, CacheTtlSeconds, storedAt);
  }

  /**
   * The part of the handler after a cache miss: gathers the credential pool, fetches
   * and extracts the page, and calls the models.
   */
  method Compute(url: string, env: Env, fetch: string -> Page, endpoint: (ChatRequest, string) -> Response)
    returns (reply: HttpReply)
    ensures reply == Computed(url, Pool(env), fetch, endpoint)
  {
    var apiKeys := GetApiKeys(env);
    if |apiKeys| == 0 {
      return HttpReply(500, ErrorBody(NoKeysText, None));
    }
    var page := fetch(url);
    if page.Blocked? {
      return HttpReply(502, ErrorBody(FetchBlockedText, Some("FETCH_BLOCKED")));
    }
    var extracted := Extract(page);
    if !Readable(extracted) {
      return HttpReply(422, ErrorBody(NoContentText, Some("NO_CONTENT")));
    }
    var outcome, events := CallSummarize(extracted.title, extracted.excerpt, extracted.content, url, apiKeys, endpoint);
    if outcome.Failure? {
      return HttpReply(500, ErrorBody(SummarizationFailedPrefix + ErrorMessage(outcome.error), None));
    }
    reply := HttpReply(200, SummaryBody(extracted.title, extracted.excerpt, outcome.value, false));
  }
}

=== FILE: links.dfy ===
/**
 * The pure logic of the dashboard client (app.js): the link records, search and
 * category/tag filtering, removing summaries before persisting, stripping HTML tags,
 * URL and sub-entry normalisation, the text stored after a summarise request, and
 * the theme switch. Lower-casing is limited to ASCII letters.
 */
module LinkModel {
  import opened Wrappers
  import opened Text

  /** One URL of a multi-URL link. `summary` is `None` when the field is absent. */
  datatype SubEntry = SubEntry(id: string, title: string, url: string, summary: Option<string>, isError: bool)

  /**
   * A saved link. `contributor`, `tags` and `subEntries` may be absent from stored
   * records; `isError == false` also stands for the field being absent.
   */
  datatype Link = Link(
    id: string,
    title: string,
    url: string,
    category: string,
    contributor: Option<string>,
    tags: Option<seq<string>>,
    createdAt: int,
    subEntries: Option<seq<SubEntry>>,
    summary: Option<string>,
    isError: bool)

  /** `r` can be obtained from `s` by deleting elements, keeping the order of the rest. */
  predicate IsSubsequence<T(==)>(r: seq<T>, s: seq<T>)
    decreases |s|
  {
    r == [] || (s != [] && ((r[0] == s[0] && IsSubsequence(r[1..], s[1..])) || IsSubsequence(r, s[1..])))
  }

  /** A subsequence of `s` only holds elements of `s`. */
  lemma {:induction false} SubsequenceElements<T>(r: seq<T>, s: seq<T>)
    requires IsSubsequence(r, s)
    ensures forall x :: x in r ==> x in s
    decreases |s|
  {
    if r != [] {
      if r[0] == s[0] && IsSubsequence(r[1..], s[1..]) {
        SubsequenceElements(r[1..], s[1..]);
        forall x | x in r ensures x in s {
          if x != r[0] {
            assert x in r[1..];
          }
        }
      } else {
        SubsequenceElements(r, s[1..]);
      }
    }
  }

  /** A subsequence of a suffix of `s` is a subsequence of `s`. */
  lemma {:induction false} SubsequenceOfSuffix<T>(r: seq<T>, s: seq<T>, k: nat)
    requires k <= |s| && IsSubsequence(r, s[k..])
    ensures IsSubsequence(r, s)
    decreases k
  {
    if k > 0 {
      assert s[1..][k - 1..] == s[k..];
      SubsequenceOfSuffix(r, s[1..], k - 1);
    }
  }

  // ---------------------------------------------------------------------------
  // Filtering (getFilteredLinks)

  const AllCategories: string := "All"

  /** The lower-cased query occurs in the title, the url, the contributor or one of the tags. */
  predicate MatchesSearch(link: Link, query: string) {
    var q := ToLower(query);
    || Contains(ToLower(link.title), q)
    || Contains(ToLower(link.url), q)
    || (link.contributor.Some? && Contains(ToLower(link.contributor.value), q))
    || (link.tags.Some? && exists tag :: tag in link.tags.value && Contains(ToLower(tag), q))
  }

  /** The three conditions a link must meet to be listed. */
  predicate Matches(link: Link, query: string, activeCategory: string, activeTag: Option<string>) {
    && MatchesSearch(link, query)
    && (activeCategory == AllCategories || link.category == activeCategory)
    && (activeTag.None? || (link.tags.Some? && activeTag.value in link.tags.value))
  }

  function FilteredLinks(links: seq<Link>, query: string, activeCategory: string, activeTag: Option<string>): seq<Link>
  {
    if links == [] then []
    else
      var rest := FilteredLinks(links[1..], query, activeCategory, activeTag);
      if Matches(links[0], query, activeCategory, activeTag) then [links[0]] + rest else rest
  }

  /**
   * The listed links are the links, in their stored order, less those that fail the
   * search, the category or the tag condition: a link is listed exactly when it is
   * stored and meets all three, and as many times as it is stored.
   */
  lemma {:induction false} FilteredLinksSpec(links: seq<Link>, query: string, activeCategory: string, activeTag: Option<string>)
    ensures var r := FilteredLinks(links, query, activeCategory, activeTag);
      && IsSubsequence(r, links)
      && (forall l :: l in r <==> l in links && Matches(l, query, activeCategory, activeTag))
      && (forall l :: multiset(r)[l] == if Matches(l, query, activeCategory, activeTag) then multiset(links)[l] else 0)
  {
    if links != [] {
      var rest := FilteredLinks(links[1..], query, activeCategory, activeTag);
      FilteredLinksSpec(links[1..], query, activeCategory, activeTag);
      assert links == [links[0]] + links[1..];
      if Matches(links[0], query, activeCategory, activeTag) {
        assert ([links[0]] + rest)[1..] == rest;
      } else {
        assert IsSubsequence(rest, links[1..]);
      }
      assert forall l :: l in links <==> l == links[0] || l in links[1..];
    }
  }

  // ---------------------------------------------------------------------------
  // deleteLink

  /** The links whose id differs from `id`. */
  function Without(links: seq<Link>, id: string): seq<Link>
  {
    if links == [] then []
    else
      var rest := Without(links[1..], id);
      if links[0].id != id then [links[0]] + rest else rest
  }

  /**
   * Deleting removes exactly the links carrying `id` and keeps the others in order;
   * the list shrinks by the number of links carrying `id`.
   */
  lemma {:induction false} WithoutSpec(links: seq<Link>, id: string)
    ensures var r := Without(links, id);
      && IsSubsequence(r, links)
      && (forall l :: l in r <==> l in links && l.id != id)
      && |r| == |links| - CountId(links, id)
  {
    if links != [] {
      var rest := Without(links[1..], id);
      WithoutSpec(links[1..], id);
      if links[0].id != id {
        assert ([links[0]] + rest)[1..] == rest;
      } else {
        assert IsSubsequence(rest, links[1..]);
      }
      assert forall l :: l in links <==> l == links[0] || l in links[1..];
    }
  }

  /** How many links carry `id`. */
  function CountId(links: seq<Link>, id: string): nat {
    if links == [] then 0 else (if links[0].id == id then 1 else 0) + CountId(links[1..], id)
  }

  /**
   * The position of the first element whose id (as `idOf` reads it) is `id`, or
   * `None` when there is none: `findIndex` with `None` for -1.
   */
  function FindFirst<T>(s: seq<T>, idOf: T -> string, id: string): (r: Option<nat>)
    ensures r.Some? ==> r.value < |s| && idOf(s[r.value]) == id
    ensures r.Some? ==> forall j :: 0 <= j < r.value ==> idOf(s[j]) != id
    ensures r.None? ==> forall j :: 0 <= j < |s| ==> idOf(s[j]) != id
  {
    if s == [] then None
    else if idOf(s[0]) == id then Some(0)
    else
      match FindFirst(s[1..], idOf, id)
      case None => None
      case Some(k) => Some(k + 1)
  }

  /** `links.findIndex(l => l.id === id)`. */
  function FindIndex(links: seq<Link>, id: string): Option<nat> {
    FindFirst(links, (l: Link) => l.id, id)
  }

  /** `subEntries.find(s => s.id === id)`, as the position of the entry found. */
  function FindSubEntry(subs: seq<SubEntry>, id: string): Option<nat> {
    FindFirst(subs, (e: SubEntry) => e.id, id)
  }

  // ---------------------------------------------------------------------------
  // clearSummaries

  /**
   * The record persisted for a link: no summary on the link nor on any sub-entry,
   * the same sub-entries in the same order (none when the field was absent), and
   * every other field as it was.
   */
  function ClearSummaries(link: Link): (r: Link)
    ensures r.summary.None? && r.subEntries.Some?
    ensures |r.subEntries.value| == |link.subEntries.GetOr([])|
    ensures forall i :: 0 <= i < |r.subEntries.value| ==>
      r.subEntries.value[i].summary.None? && r.subEntries.value[i].(summary := link.subEntries.GetOr([])[i].summary) == link.subEntries.GetOr([])[i]
    ensures r.(summary := link.summary, subEntries := link.subEntries) == link
  {
    var subs := link.subEntries.GetOr([]);
    link.(summary := None, subEntries := Some(seq(|subs|, i requires 0 <= i < |subs| => subs[i].(summary := None))))
  }

  /** Clearing twice is clearing once. */
  lemma ClearSummariesIdempotent(link: Link)
    ensures ClearSummaries(ClearSummaries(link)) == ClearSummaries(link)
  {
    var once := ClearSummaries(link);
    var twice := ClearSummaries(once);
    assert twice.subEntries.value == once.subEntries.value;
  }

  // ---------------------------------------------------------------------------
  // stripTags: text.replace(/<[^>]*>/g, '')

  /**
   * Scanning from the left, a `<` that has a `>` somewhere after it starts a match
   * that runs to the first such `>` and is deleted; any other character is kept.
   */
  function StripTags(s: string): string
    decreases |s|
  {
    if s == [] then []
    else if s[0] == '<' && '>' in s then StripTags(s[FirstIndex(s, '>') + 1..])
    else [s[0]] + StripTags(s[1..])
  }

  /** No `<` in `s` is followed, anywhere later, by a `>`: nothing left for the pattern to match. */
  predicate TagFree(s: string) {
    forall i, j :: 0 <= i < j < |s| && s[i] == '<' ==> s[j] != '>'
  }

  /** Stripping only deletes characters: the result is a subsequence of the input. */
  lemma {:induction false} StripTagsSubsequence(s: string)
    ensures IsSubsequence(StripTags(s), s)
    decreases |s|
  {
    if s == [] {
    } else if s[0] == '<' && '>' in s {
      var k := FirstIndex(s, '>') + 1;
      StripTagsSubsequence(s[k..]);
      SubsequenceOfSuffix(StripTags(s[k..]), s, k);
    } else {
      StripTagsSubsequence(s[1..]);
      assert ([s[0]] + StripTags(s[1..]))[1..] == StripTags(s[1..]);
    }
  }

  /** What stripping leaves contains no tag. */
  lemma {:induction false} StripTagsTagFree(s: string)
    ensures TagFree(StripTags(s))
    decreases |s|
  {
    if s == [] {
    } else if s[0] == '<' && '>' in s {
      StripTagsTagFree(s[FirstIndex(s, '>') + 1..]);
    } else {
      var rest := StripTags(s[1..]);
      StripTagsTagFree(s[1..]);
      var r := [s[0]] + rest;
      if s[0] == '<' {
        StripTagsSubsequence(s[1..]);
        SubsequenceElements(rest, s[1..]);
        assert '>' !in rest;
      }
      forall i, j | 0 <= i < j < |r| && r[i] == '<' ensures r[j] != '>' {
        if i > 0 {
          assert r[i] == rest[i - 1] && r[j] == rest[j - 1];
        } else {
          assert r[j] == rest[j - 1];
        }
      }
    }
  }

  /** Dropping the first character keeps text tag-free. */
  lemma TagFreeTail(s: string)
    requires s != [] && TagFree(s)
    ensures TagFree(s[1..])
  {
    var t := s[1..];
    forall i, j | 0 <= i < j < |t| && t[i] == '<' ensures t[j] != '>' {
      assert t[i] == s[i + 1] && t[j] == s[j + 1];
    }
  }

  /** Tag-free text that starts with `<` has no `>` at all. */
  lemma TagFreeOpening(s: string)
    requires s != [] && TagFree(s) && s[0] == '<'
    ensures '>' !in s
  {
    forall j | 0 <= j < |s| ensures s[j] != '>' {
      if j > 0 {
        assert 0 < j && s[0] == '<';
      }
    }
  }

  /** Text without tags comes back unchanged. */
  lemma {:induction false} StripTagsKeepsTagFree(s: string)
    requires TagFree(s)
    ensures StripTags(s) == s
    decreases |s|
  {
    if s != [] {
      if s[0] == '<' {
        TagFreeOpening(s);
      }
      TagFreeTail(s);
      StripTagsKeepsTagFree(s[1..]);
      assert StripTags(s) == [s[0]] + StripTags(s[1..]);
      assert [s[0]] + s[1..] == s;
    }
  }

  /** Stripping twice is stripping once. */
  lemma StripTagsIdempotent(s: string)
    ensures StripTags(StripTags(s)) == StripTags(s)
  {
    StripTagsTagFree(s);
    StripTagsKeepsTagFree(StripTags(s));
  }

  // ---------------------------------------------------------------------------
  // URL and sub-entry normalisation (handleAddLink)

  const HttpPrefix: string := "http"
  const HttpsScheme: string := "https://"

  /**
   * A url that starts with "http" is kept, any other gets "https://" in front: the
   * result always starts with "http", ends with the url given, and equals it
   * exactly when it already started with "http".
   */
  function NormalizeUrl(url: string): (r: string)
    ensures StartsWith(r, HttpPrefix)
    ensures |url| <= |r| && r[|r| - |url|..] == url
    ensures r == url <==> StartsWith(url, HttpPrefix)
    ensures !StartsWith(url, HttpPrefix) ==> StartsWith(r, HttpsScheme) && |r| == |HttpsScheme| + |url|
  {
    if StartsWith(url, HttpPrefix) then url else HttpsScheme + url
  }

  /** Normalising a normalised url changes nothing. */
  lemma NormalizeUrlIdempotent(url: string)
    ensures NormalizeUrl(NormalizeUrl(url)) == NormalizeUrl(url)
  {
  }

  /**
   * A sub-entry as saved: its id (or `freshId` when it has none), its title, and
   * its url normalised (empty stays empty); the summary and error flag are not
   * carried over.
   */
  function NormalizeSubEntry(s: SubEntry, freshId: string): (r: SubEntry)
    ensures r.id == (if s.id != "" then s.id else freshId) && r.title == s.title
    ensures r.url == "" <==> s.url == ""
    ensures r.url != "" ==> StartsWith(r.url, HttpPrefix) && r.url == NormalizeUrl(s.url)
    ensures r.summary.None? && !r.isError
  {
    SubEntry(if s.id != "" then s.id else freshId, s.title, if s.url != "" then NormalizeUrl(s.url) else "", None, false)
  }

  /**
   * Every sub-entry normalised, in order; `freshIds(i)` is the id generated for the
   * i-th one if it lacks one. Titles and ids given are kept, every url is empty or
   * starts with "http", and no summary or error flag survives.
   */
  function NormalizeSubEntries(subs: seq<SubEntry>, freshIds: nat -> string): (r: seq<SubEntry>)
    ensures |r| == |subs|
    ensures forall i :: 0 <= i < |subs| ==>
      && r[i].title == subs[i].title
      && r[i].id == (if subs[i].id != "" then subs[i].id else freshIds(i))
      && (r[i].url == "" <==> subs[i].url == "")
      && (r[i].url != "" ==> StartsWith(r[i].url, HttpPrefix) && r[i].url == NormalizeUrl(subs[i].url))
      && r[i].summary.None? && !r[i].isError
  {
    var r := seq(|subs|, i requires 0 <= i < |subs| => NormalizeSubEntry(subs[i], freshIds(i)));
    assert forall i :: 0 <= i < |subs| ==> r[i] == NormalizeSubEntry(subs[i], freshIds(i));
    r
  }

  // ---------------------------------------------------------------------------
  // The text kept after a summarise request

  const SummaryUnavailableText: string :=
    "Unable to generate summary. This site may block content extraction. Try a different URL."
  const MultiSummaryUnavailableText: string := "Unable to generate summary."
  const SubSummaryUnavailableText: string :=
    "Unable to generate summary. This site may block content extraction."
  const FailedSummaryPrefix: string := "Failed to generate summary: "
  const DefaultRequestError: string := "Summarization failed"

  /**
   * What the client gets back from `/api/summarize`: a response with its `ok` flag
   * and the JSON fields it reads, or a thrown error (the network, or a body that is
   * not JSON) with its name (such as "TypeError") and message.
   */
  datatype ClientAnswer =
    | Answer(ok: bool, summary: Option<string>, excerpt: Option<string>, error: Option<string>)
    | Thrown(name: string, message: string)

  /** The summary field, trimmed, with its tags stripped. */
  function CleanSummary(summary: Option<string>): string {
    StripTags(Trim(summary.GetOr("")))
  }

  /**
   * The stored text: the cleaned summary if non-empty, else the trimmed excerpt if
   * non-empty, else the `unavailable` message; it is never empty, and it is the
   * `unavailable` message only when the other two are empty.
   */
  function SummaryText(summary: Option<string>, excerpt: Option<string>, unavailable: string): (r: string)
    requires unavailable != ""
    ensures r != ""
    ensures CleanSummary(summary) != "" ==> r == CleanSummary(summary)
    ensures CleanSummary(summary) == "" && excerpt.Some? && Trim(excerpt.value) != "" ==> r == Trim(excerpt.value)
    ensures r == unavailable || r == CleanSummary(summary) || (excerpt.Some? && r == Trim(excerpt.value))
  {
    var s := CleanSummary(summary);
    if s != "" then s
    else if excerpt.Some? && excerpt.value != "" && Trim(excerpt.value) != "" then Trim(excerpt.value)
    else unavailable
  }

  /**
   * `err.message || err` for the error a failed request ends with: for a non-OK
   * answer, the error the handler raises from the body's `error` field or the
   * default text; for a thrown error, its message, or its name (what `String(err)`
   * gives) when the message is empty.
   */
  function ErrorText(a: ClientAnswer): (r: string)
    ensures a.Answer? ==> r != "" && (r == DefaultRequestError || (a.error.Some? && r == a.error.value))
    ensures a.Answer? && a.error.Some? && a.error.value != "" ==> r == a.error.value
    ensures a.Thrown? ==> r == a.message || (a.message == "" && r == a.name)
    ensures a.Thrown? && a.message != "" ==> r == a.message
    ensures a.Thrown? && a.name != "" ==> r != ""
  {
    match a
    case Answer(_, _, _, error) => if error.Some? && error.value != "" then error.value else DefaultRequestError
    case Thrown(name, message) => if message != "" then message else name
  }

  /** What a summarise request leaves: a summary text, or a failure message. */
  datatype SummaryUpdate = Produced(text: string) | Reported(message: string)

  /**
   * An OK answer produces the fallback text; anything else reports
   * "Failed to generate summary: " and the error's message. Both are non-empty.
   */
  function Resolve(a: ClientAnswer, unavailable: string): (u: SummaryUpdate)
    requires unavailable != ""
    ensures u.Produced? <==> a.Answer? && a.ok
    ensures u.Produced? ==> u.text != "" && u.text == SummaryText(a.summary, a.excerpt, unavailable)
    ensures u.Reported? ==> u.message == FailedSummaryPrefix + ErrorText(a)
    ensures u.Reported? && (a.Answer? || a.name != "") ==> StartsWith(u.message, FailedSummaryPrefix) && |u.message| > |FailedSummaryPrefix|
  {
    if a.Answer? && a.ok then Produced(SummaryText(a.summary, a.excerpt, unavailable))
    else Reported(FailedSummaryPrefix + ErrorText(a))
  }

  // ---------------------------------------------------------------------------
  // toggleTheme

  /**
   * The theme after a toggle of `current` (the `data-theme` attribute, "" when
   * absent): "light" from "dark" or from no theme, "dark" from anything else.
   */
  function Toggled(current: string): (r: string)
    ensures r == "light" || r == "dark"
    ensures r == "light" <==> current == "dark" || current == ""
  {
    var theme := if current == "" then "dark" else current;
    if theme == "dark" then "light" else "dark"
  }

  /** Toggling twice from dark or light comes back to it; from anything else it ends on light. */
  lemma ToggleTwice(current: string)
    ensures current == "dark" || current == "light" ==> Toggled(Toggled(current)) == current
    ensures current != "dark" && current != "light" && current != "" ==> Toggled(Toggled(current)) == "light"
  {
  }
}

=== FILE: text.dfy ===
/**
 * The handful of JavaScript string operations the core relies on:
 * `trim`, `startsWith`, `includes`, `indexOf` and `toLowerCase`.
 */
module Text {

  /** The position of the first `x` in `s`, as `indexOf` finds it. */
  function FirstIndex<T(==)>(s: seq<T>, x: T): (r: nat)
    requires x in s
    ensures r < |s| && s[r] == x && x !in s[..r]
  {
    if s[0] == x then 0
    else
      var k := FirstIndex(s[1..], x);
      assert s[..k + 1] == [s[0]] + s[1..][..k];
      k + 1
  }

  /** The white space `String.prototype.trim` removes, limited to the characters listed here. */
  predicate IsSpace(c: char) {
    c == ' ' || c == '\t' || c == '\n' || c == '\r' || c == '\U{B}' || c == '\U{C}'
    || c == '\U{A0}' || c == '\U{FEFF}'
  }

  /** Drops leading white space. */
  function TrimStart(s: string): string
  {
    if s != [] && IsSpace(s[0]) then TrimStart(s[1..]) else s
  }

  /** Drops trailing white space. */
  function TrimEnd(s: string): string
  {
    if s != [] && IsSpace(s[|s| - 1]) then TrimEnd(s[..|s| - 1]) else s
  }

  /** `s.trim()`. */
  function Trim(s: string): string
  {
    TrimEnd(TrimStart(s))
  }

  /** What `TrimStart` removes is a run of white space, and what it keeps is a suffix that does not start with white space. */
  lemma {:induction false} TrimStartSpec(s: string)
    ensures var r := TrimStart(s);
      && |r| <= |s| && r == s[|s| - |r|..]
      && (r == [] || !IsSpace(r[0]))
      && forall i :: 0 <= i < |s| - |r| ==> IsSpace(s[i])
  {
    if s != [] && IsSpace(s[0]) {
      var t := s[1..];
      TrimStartSpec(t);
      var r := TrimStart(t);
      assert TrimStart(s) == r;
      assert t[|t| - |r|..] == s[|s| - |r|..];
      forall i | 0 <= i < |s| - |r|
        ensures IsSpace(s[i])
      {
        if i > 0 {
          assert s[i] == t[i - 1];
        }
      }
    }
  }

  /** What `TrimEnd` removes is a run of white space, and what it keeps is a prefix that does not end with white space. */
  lemma {:induction false} TrimEndSpec(s: string)
    ensures var r := TrimEnd(s);
      && |r| <= |s| && r == s[..|r|]
      && (r == [] || !IsSpace(r[|r| - 1]))
      && forall i :: |r| <= i < |s| ==> IsSpace(s[i])
  {
    if s != [] && IsSpace(s[|s| - 1]) {
      TrimEndSpec(s[..|s| - 1]);
    }
  }

  /**
   * `s.trim()` is the piece of `s` left after removing white space at both ends:
   * it occurs in `s`, everything before and after it is white space, and it
   * neither starts nor ends with white space.
   */
  lemma TrimSpec(s: string)
    ensures var r := Trim(s);
      && |r| <= |s|
      && (exists i :: 0 <= i <= |s| && OccursAt(s, i, r)
            && (forall k :: 0 <= k < i ==> IsSpace(s[k]))
            && (forall k :: i + |r| <= k < |s| ==> IsSpace(s[k])))
      && (r == [] || (!IsSpace(r[0]) && !IsSpace(r[|r| - 1])))
  {
    var t := TrimStart(s);
    TrimStartSpec(s);
    TrimEndSpec(t);
    var r := TrimEnd(t);
    var i := |s| - |t|;
    assert OccursAt(s, i, r);
    assert forall k :: i + |r| <= k < |s| ==> s[k] == t[k - i];
    if r != [] {
      assert r[0] == t[0];
    }
  }

  /** Trimming is idempotent: a trimmed string has nothing left to trim. */
  lemma TrimIdempotent(s: string)
    ensures Trim(Trim(s)) == Trim(s)
  {
    TrimSpec(s);
    var r := Trim(s);
    assert TrimStart(r) == r;
    assert TrimEnd(r) == r;
  }

  /** `s.startsWith(p)`. */
  predicate StartsWith(s: string, p: string) {
    |p| <= |s| && s[..|p|] == p
  }

  /** `t` occurs in `s` starting at index `i`. */
  predicate OccursAt(s: string, i: nat, t: string) {
    i + |t| <= |s| && s[i..i + |t|] == t
  }

  /** `s.includes(t)`: `t` occurs in `s` as a contiguous piece. */
  predicate Contains(s: string, t: string) {
    exists i :: 0 <= i <= |s| && OccursAt(s, i, t)
  }

  /** Lower-casing of one character, limited to the ASCII letters. */
  function LowerChar(c: char): char {
    if 'A' <= c <= 'Z' then (c as int + 32) as char else c
  }

  /** `s.toLowerCase()`, limited to the ASCII letters. */
  function ToLower(s: string): (r: string)
    ensures |r| == |s| && forall i :: 0 <= i < |s| ==> r[i] == LowerChar(s[i])
  {
    seq(|s|, i requires 0 <= i < |s| => LowerChar(s[i]))
  }
}

=== FILE: wrappers.dfy ===
/** Option and Result, the failure-carrying values used throughout the model. */
module Wrappers {

  datatype Option<+T> = None | Some(value: T) {
    function GetOr(default: T): T {
      match this
      case Some(v) => v
      case None => default
    }
  }

  datatype Result<+R, +E> = Success(value: R) | Failure(error: E)
}
